=== FILE: README.md ===
# A verified model of the p-median engine of DAA_K-means

The repository solves a p-median (facility-location) problem. A `Problem`
is a list of demand points. A `Solution` is a list of facilities, each a
copy of some Problem point. A solution costs the sum, over demand points,
of the distance to the nearest facility. This model covers:

- the two `evaluate` overloads: plain, and with the per-point cache of
  nearest distances (`DistanceIndex`);
- the three O(n) cache repairs that price an insertion, an elimination
  and an exchange;
- the three neighbourhood searches built on those repairs, and the
  `local_search` descent that chains them;
- the two drivers, `Grasp::solve` and `GVNS::solve`.

Modules follow the source:

| module | file | models |
|---|---|---|
| `Problems` | problem.dfy | `include/problem.h` |
| `Solutions` | solution.dfy | `Solution`, both `evaluate`s, `==`, `!=` |
| `Repairs` | repair.dfy | `evaluate_insertion`, `evaluate_elimination`, `evaluate_exchange` |
| `Neighbourhoods` | search.dfy | `insertion_search`, `elimination_search`, `exchange_search` |
| `Descent` | local_search.dfy | `local_search` |
| `Construction` | construction.dfy | the greedy randomised construction shared by both drivers |
| `Traces` | trace.dfy | the strictly improving list of solutions both drivers return |
| `Grasp` | grasp.dfy | `Grasp::solve` |
| `Gvns` | gvns.dfy | `GVNS::solve` |

Modelling choices:

- **Distance.** It is a parameter `dist` of type `Metric`, an arbitrary
  non-negative function on points. The Euclidean distance of
  `include/utilities.h` is one instance. No property here needs the
  triangle inequality.
- **Random draws.** Every random draw comes from a stream `draws` of
  naturals. A draw from `uniform_int_distribution(0, r-1)` is
  `draws[pos] % r`. When the stream runs out, the run ends and reports
  `exhausted`.
- **Sort order.** The outcome of `std::sort` is the permutation `order`,
  passed in as an argument. It is proved ascending (see below). One
  permutation serves every construction step and every GRASP restart:
  each call sorts the same input, the `iota` sequence under all-zero keys,
  so nothing distinguishes one call's outcome from another's.
- **Tie-breaking.** Strict `<` scans keep the first facility of minimum
  distance (`IsFirstNearest`). The cache the model computes is therefore
  canonical (`Canonical`). The repairs REQUIRE only the weaker invariant
  `Consistent`, which does not fix which facility a tie goes to. They do
  not re-establish it: a repaired copy can hold a Problem index, or a
  position from before an erase, so it is used only for its total and
  then discarded.

What the code does where one might expect otherwise; the model follows
the code in each case:

- **RCL keys are all zero.** The candidate-distance array starts at 0 and
  is only ever lowered. Distances are never negative, so every key stays
  0 (`Construction.CandidateDistances`). Any permutation is then an
  ascending order (`Construction.EqualKeysSortAnyOrder`). The restricted
  candidate list is the first `lrc_size` indices of that order: the
  SMALLEST keys, not the points farthest from the solution as the
  comments say.
- **GRASP does no local search.** `Grasp::solve` keeps constructions
  as they are.
- **GVNS does no initial local search.** It starts shaking from the raw
  construction.
- **Zero distances.** GRASP's distance array skips zero distances (line
  54). GVNS's does not (line 52). This is the `skipZero` flag.
- **Elimination compares against a drifting best.** `elimination_search`
  tests each candidate against the running best, so it can erase a
  facility whose removal costs more than the start value
  (`Neighbourhoods.BoostedScanDrifts`).
- **Insertion keeps an earlier pass.** `insertion_search` also compares
  against the running best, now scaled by 0.8: it keeps the last candidate
  that beat the running bar, not the cheapest one
  (`Neighbourhoods.PenalisedScanKeepsEarlierPass`).
- **Cache slots mix two kinds of index.** Insertion and exchange repairs
  store a Problem index in a cache slot that otherwise holds a facility
  position (lines 153 and 197). The repaired copy is discarded after
  pricing, so that index is never read again.
- **One facility.** The rescan of elimination and exchange skips the
  erased position (lines 165-173 and 185-193). With one facility it sees
  no facility at all and never assigns, so the outgoing facility's
  distance stays in the slot. Exchange repair then equals insertion repair
  (`Repairs.SingleFacilityExchangeIsInsertion`), and elimination leaves
  the cache and its total untouched
  (`Repairs.SingleFacilityEliminationKeepsCache`).
- **GVNS compares index kinds.** Its replacement draw compares a Problem
  index against the list of selected solution POSITIONS (line 94).

## Model

| member | source | states |
|---|---|---|
| Problems.Update | include/problem.h:41-43 | writing point i through `operator[]` keeps the size, reads back x at i and leaves every other point unchanged |
| Problems.NewProblem | include/problem.h:31-35 | `Problem(n, d)` fails exactly when it has a point to build and d is negative (`Point(d)` throws); otherwise it holds max(n, 0) points, each the d-dimensional origin, and with a point its `dimensions()` is d |
| Solutions.Nearest | include/solution.h:53-58 | the inner strict-`<` scan yields a facility at minimum distance with no earlier facility as close |
| Solutions.ScanFacilities | include/solution.h:71-78 | the loop over facilities ends with a finite running minimum that is the first nearest facility and its distance |
| Solutions.Evaluate | include/solution.h:49-62 | `evaluate(problem)` returns the p-median cost: the sum of every demand point's distance to its nearest facility |
| Solutions.EvaluateIndexed | include/solution.h:67-87 | `evaluate(problem, distances)` fills each slot with the nearest distance and the first facility attaining it, and returns both the p-median cost and the slot total |
| Solutions.Equals | include/solution.h:89-98 | `==` holds exactly when the sizes agree and every pair of facilities agrees in length and per coordinate within 0.001 |
| Solutions.NotEquals | include/solution.h:100-102 | `!=` holds exactly when `==` does not |
| Solutions.SumFirstCongruent | include/solution.h:206 | caches with equal distances have equal totals |
| Solutions.SumFirstMonotone | include/solution.h:206 | raising slot distances never lowers the total |
| Solutions.SumFirstNonNegative | include/solution.h:206 | a cache of non-negative distances totals non-negative |
| Solutions.NearestValue | include/solution.h:53-58 | every facility at minimum distance has the distance the scan records |
| Solutions.FirstNearestUnique | include/solution.h:74-77 | the strict `<` determines the recorded slot uniquely |
| Solutions.CanonicalIsNearestIndex | include/solution.h:67-80 | a cache holds minimum distances with the lowest attaining facility in every slot if and only if it is the cache `evaluate` fills |
| Solutions.ConsistentSumIsCost | include/solution.h:81-86 | any cache satisfying the nearest-distance invariant totals the p-median cost |
| Solutions.CostNonNegative | include/solution.h:49-62 | the cost is never negative |
| Solutions.ApproxEqualReflexive | include/solution.h:89-98 | every solution equals itself under `==` |
| Solutions.ApproxEqualSymmetric | include/solution.h:89-98 | `==` is symmetric |
| Repairs.Erase | include/solution.h:230 | erasing a position shortens the list by one and shifts the later facilities down |
| Repairs.InsertionRepair | include/solution.h:148-158 | a slot takes (distance, j) exactly when the new point is strictly closer than its cached distance, and otherwise keeps its entry |
| Repairs.BestExcept | include/solution.h:164-173 | the rescan skipping the erased position finds nothing exactly when no other position exists, and otherwise finds another facility at minimum distance |
| Repairs.EliminationRepair | include/solution.h:160-178 | slots not pointing at the erased position are unchanged |
| Repairs.ExchangeRepair | include/solution.h:180-202 | the exchange repair keeps the cache length |
| Repairs.ExchangeRepairSlots | include/solution.h:182-199 | after the exchange repair every slot is no farther than the incoming point, and a slot that neither points at the outgoing position nor loses to the incoming point is unchanged |
| Repairs.ElimEntryIsNearestExcept | include/solution.h:163-174 | with two or more facilities the rescanned slot is nearest among the remaining facilities |
| Repairs.NearestAfterErase | include/solution.h:160-178 | after erasing a position, the nearest distance is the minimum over the other facilities |
| Repairs.NearestAfterReplace | include/solution.h:195-198 | after replacing a position, the nearest distance is the smaller of the rescan and the incoming point's distance |
| Repairs.InsertionRepairIsEvaluate | include/solution.h:148-158 | insertion repair of a consistent cache returns the cost of the solution with that Problem point appended |
| Repairs.EliminationRepairIsEvaluate | include/solution.h:160-178 | with two or more facilities, elimination repair returns the cost of the solution with the position erased |
| Repairs.ExchangeRepairIsEvaluate | include/solution.h:180-202 | with two or more facilities, exchange repair returns the cost of the exchanged solution, and each slot points at the new Problem index or away from the replaced position |
| Repairs.EliminationNeverLowers | include/solution.h:160-178 | removing a facility never prices below the current total |
| Repairs.SingleFacilityEliminationKeepsCache | include/solution.h:160-178 | with one facility, elimination leaves the cache and its total unchanged |
| Repairs.SingleFacilityExchangeIsInsertion | include/solution.h:180-202 | with one facility, exchange repair equals insertion repair of the same Problem point |
| Neighbourhoods.ScanPrefix | include/solution.h:208-217 | a search loop keeps nothing exactly when no candidate passes against the start value; a kept candidate set the running best, and no later candidate passed against it |
| Neighbourhoods.ImproveScanIsFirstMinimum | include/solution.h:241-252 | under strict improvement the kept candidate is below the start, no candidate is cheaper, and no earlier candidate is as cheap |
| Neighbourhoods.PenalisedScanBelowThreshold | include/solution.h:207-216 | under the 20% penalty the kept candidate is below 0.8 times a non-negative start value |
| Neighbourhoods.BoostedScanPassedRunningBest | include/solution.h:224-233 | under the 5% boost the kept candidate, scaled by 0.95, is below the start or below the price of an earlier candidate |
| Neighbourhoods.PenalisedScanKeepsEarlierPass | include/solution.h:207-216 | with prices 50 and 45 against 100, insertion keeps 50 although 45 also passes against 100 |
| Neighbourhoods.BoostedScanDrifts | include/solution.h:224-233 | with prices 104 and 109 against 100, the search keeps 109, which does not pass against 100 |
| Neighbourhoods.ExchangeMoves | include/solution.h:241-242 | the nested loops enumerate pairs of a solution position and a Problem index |
| Neighbourhoods.ExchangeMovesCover | include/solution.h:241-242 | every such pair is enumerated |
| Neighbourhoods.ExchangeChoice | include/solution.h:238-254 | a kept exchange names a valid position and Problem index |
| Neighbourhoods.ExchangeSearch | include/solution.h:238-254 | exchange_search returns `sol` or `sol` with one position set to a Problem point, so size and dimensions are kept |
| Neighbourhoods.ExchangePricesCover | include/solution.h:241-245 | every move's repaired price is in the price list |
| Neighbourhoods.ExchangeChoiceNone | include/solution.h:240-252 | no exchange is kept exactly when no move is priced strictly below the cache total |
| Neighbourhoods.ExchangeChoiceIsCheapest | include/solution.h:240-252 | the kept exchange is priced strictly below the cache total and no higher than any other move |
| Neighbourhoods.ExchangePriceAt | include/solution.h:244-245 | each price in the list is the exchange repair of its move |
| Neighbourhoods.InsertionChoice | include/solution.h:208-217 | a kept insertion names a valid Problem index |
| Neighbourhoods.InsertionSearch | include/solution.h:204-219 | insertion_search returns `sol` or `sol` with one Problem point appended |
| Neighbourhoods.InsertionChoiceNone | include/solution.h:206-217 | no insertion is kept exactly when none is priced below 0.8 times the cache total |
| Neighbourhoods.InsertionChoiceSome | include/solution.h:206-217 | the kept insertion is priced below 0.8 times a non-negative cache total, and no later insertion is below 0.8 times its price |
| Neighbourhoods.EliminationChoice | include/solution.h:225-234 | a kept elimination names a valid position |
| Neighbourhoods.EliminationSearch | include/solution.h:221-236 | elimination_search returns `sol` or `sol` with one position erased |
| Neighbourhoods.EliminationChoiceNone | include/solution.h:223-234 | nothing is erased exactly when no removal, scaled by 0.95, is priced below the cache total |
| Neighbourhoods.EliminationChoicePassed | include/solution.h:223-234 | the erased position, scaled by 0.95, is priced below the cache total or below the price of an earlier removal |
| Neighbourhoods.EliminationChoiceLast | include/solution.h:225-234 | no removal after the erased position passes, scaled by 0.95, against its price |
| Neighbourhoods.ExchangePricesAreCosts | include/solution.h:180-202 | with a consistent cache and two or more facilities, each exchange price is the true cost of the exchanged solution |
| Neighbourhoods.ExchangeSearchIsBestNeighbour | include/solution.h:238-254 | with a consistent cache and two or more facilities, exchange_search returns the input exactly when no exchange neighbour is strictly cheaper, and otherwise an exchange neighbour that is strictly cheaper and no dearer than any other |
| Neighbourhoods.InsertionSearchCutsCost | include/solution.h:204-219 | with a consistent cache, insertion_search returns the input exactly when no insertion costs below 0.8 times the current cost, and otherwise an insertion costing less than that |
| Neighbourhoods.EliminationSearchNeverLowersCost | include/solution.h:221-236 | with a consistent cache and two or more facilities, elimination_search erases nothing exactly when no removal passes the 0.95 test; the result is non-empty and never cheaper |
| Descent.CanonicalIsConsistent | include/solution.h:67-80 | the cache `evaluate` fills satisfies the invariant the repairs rely on |
| Descent.ExchangePhase | include/solution.h:126-130 | the first step of a pass is the exchange search on `best`, whose result is re-evaluated with a fresh first-nearest cache; with two or more facilities it keeps `best` exactly when `best` is exchange-optimal, and otherwise strictly lowers the cost |
| Descent.InsertionPhase | include/solution.h:131-135 | the second step is the insertion search on `best` with the cache the exchange step left; given a consistent cache, it keeps `best` exactly when it is insertion-optimal, and otherwise strictly lowers the cost |
| Descent.EliminationPhase | include/solution.h:136-137 | the third step is the elimination search on `best` with the cache the insertion step left; given a consistent cache over two or more facilities, the elimination step's result is never cheaper than `best` |
| Descent.InsertThenEliminate | include/solution.h:131-138 | once exchange has failed, the pass runs the insertion search with the exchange step's cache, and runs the elimination search, with the insertion result's cache, only when the insertion result is not strictly cheaper; it moves to the first strictly cheaper result and otherwise keeps `best`; with two or more facilities it keeps `best` exactly when `best` is insertion-optimal |
| Descent.Round | include/solution.h:121-138 | one do-while pass (its step results returned as `exchanged`, `inserted` and `eliminated`, a step not reached being None) runs the exchange search first, the insertion search (with the exchange result's first-nearest cache) only when the exchange result is not strictly cheaper than `best`, and the elimination search (with the insertion result's cache) only when neither was; it moves to the first strictly cheaper result and keeps `best` when none is. The successor is re-evaluated, and with two or more facilities no move happens exactly when `best` is a local optimum |
| Descent.LocalSearch | include/solution.h:112-141 | the descent never raises the cost; it returns the input or something strictly cheaper; with two or more facilities it returns the input exactly when that is a local optimum, never shrinks, and on convergence ends at a local optimum |
| Construction.Lower | include/grasp.h:51-58 | one inner step sets slot i to d exactly when d is strictly smaller (and, under GRASP's rule, not zero), and otherwise leaves the keys unchanged; no other slot is touched |
| Construction.CandidateDistances | include/grasp.h:48-58 | the zero-initialised distance array stays zero and lower-bounds every point-to-facility distance |
| Construction.EqualKeysSortAnyOrder | include/grasp.h:60-64 | with every key equal, any permutation is sorted ascending |
| Construction.RestrictedCandidateList | include/grasp.h:65-68 | the candidate list is the first `lrc_size` indices of the sorted order, pairwise different, none with a larger key than an excluded index |
| Construction.Construct | include/grasp.h:40-72 | the construction succeeds exactly when enough draws remain; it then holds max(k,1) Problem points, the first drawn uniformly, each later one drawn from the candidate list |
| Traces.BeatsLast | include/grasp.h:78 | a solution joins the list exactly when the list is empty or it is strictly cheaper than the last entry, and joining keeps the list strictly improving |
| Grasp.KeptAfterImprovement | include/grasp.h:78-81 | keeping an improving construction restores the driver invariant with the counter at zero |
| Grasp.KeptAfterStrike | include/grasp.h:77 | a non-improving construction keeps the invariant with one more strike |
| Grasp.Record | include/grasp.h:76-81 | one update appends the construction to the list exactly when it improves, resetting the counter, and otherwise counts a strike |
| Grasp.GraspSolve | include/grasp.h:33-84 | the returned list is strictly improving, starts with the first construction and ends with the cheapest one; an unexhausted run ends after 200 non-improving constructions |
| Gvns.SelectPositions | include/gvns.h:80-88 | the loop ends holding `shake_size` different positions of the solution, or runs out of draws |
| Gvns.SelectReplacements | include/gvns.h:89-98 | every held index is a Problem index not among the selected positions, whose point the membership test does not find in the solution |
| Gvns.Swap | include/gvns.h:99-102 | each selected position takes its replacement point and every other position is unchanged |
| Gvns.Shake | include/gvns.h:78-102 | shaking keeps size and dimensions, replaces exactly the selected positions by Problem points and leaves the rest |
| Gvns.Descend | include/gvns.h:104-108 | with `rvnd` the shaken solution passes through unchanged; otherwise local search never raises its cost or shrinks it, and a converged descent from two or more facilities ends at a local optimum |
| Gvns.Move | include/gvns.h:110-115 | the candidate is accepted exactly when it is strictly cheaper; the shake size then returns to 1, and otherwise grows by 1 while the solution is kept |
| Gvns.Record | include/gvns.h:117-123 | one update counts an iteration without improvement, or appends the incumbent to the list and clears the count exactly when it beats the last recorded solution; the list stays strictly improving |
| Gvns.ShakeAndDescend | include/gvns.h:76-116 | the shake size starts at 1 and each later size is back at 1 or one more than the one before; one outer iteration returns the incumbent or something strictly cheaper, built from Problem points; without `rvnd` a changed result from two or more facilities is a local optimum; an iteration cut short by neither draws nor fuel ends with the shake size one past the solution size |
| Gvns.GvnsSolve | include/gvns.h:33-124 | the construction takes its first facility from the first draw and each later one from the three-entry candidate list by the next draw; the returned list is strictly improving and ends at the incumbent, which is never dearer than the construction and, without `rvnd`, a local optimum once it has moved; the run stops at 200 stale or 3000 total iterations |

## Left out

- `include/k-means.h`, `src/main.cc` and the rest of `include/utilities.h`: k-means clustering, file reading and the command line are not part of this model.
- `euclidean_distance` is replaced by an arbitrary non-negative `Metric`. `sqrt` and floating point are not modelled: costs are exact reals.
- The `float` constants 0.2 and 0.05 are taken as exact, so the thresholds are exactly 0.8 and 0.95. Single-precision rounding is not modelled.
- `INFINITY`: a scan over no facilities is represented by `Bound`. The cost of an empty solution is not defined in the model, and `Round` treats an empty elimination result as not improving, as `+inf < v` would.
- `DistanceIndex`, `sum_distances` and `Solution::isInSolution` are used by include/solution.h and include/gvns.h and declared in none of include/problem.h, include/solution.h or include/utilities.h. They are modelled as a list of (distance, index) pairs, its in-order total (`Solutions.SumFirst`), and a membership parameter `inSolution`.
- The second loop of `evaluate(problem, distances)` (lines 81-84) totals the cache into a local that is never used, so it is not modelled.
- `std::random_device` and `std::mt19937` are replaced by the stream `draws`. A run that exhausts the stream stops early and says so. The real generator never runs out.
- The outcome of `std::sort` is a parameter `order`. Only its permutation property is assumed; sortedness is proved.
- `Solution`'s accessors (`operator[]`, `size`, `push_back`, `dimensions`) are datatype fields and sequence operations rather than members of their own.
- The `rvnd` branch of `GVNS::solve` has an empty body (line 105), so it is the identity in `Gvns.Descend`.
- Descent.LocalSearch: the do-while loop has no bound in the source. The model runs at most `fuel + 1` rounds and reports `converged`; termination of the source loop is not proved.
- Descent.LocalSearch: local optimality is stated only for solutions of two or more facilities. With one facility the exchange price is an insertion price (`Repairs.SingleFacilityExchangeIsInsertion`), so the round's decision is not about true exchange costs.
- Descent.Round: the local-optimum iff is stated only for two or more facilities, for the same reason.
- Descent.InsertionPhase: the cost statements hold only when the cache the exchange step left is consistent with `best`. With one facility it can be the cache of a different solution.
- Construction.Construct: for `k >= 2` it requires `1 <= lrc_size <= n`. A larger `lrc_size` reads past the end of the sorted index vector, and a size of 0 or less gives an empty distribution range; both are undefined behaviour in the source.
- Grasp.GraspSolve: the 200-strike loop has no other bound in the source. The model ends a run early when the draw stream runs out and reports `exhausted`.
- Gvns.GvnsSolve: the replacement loop of the shaking can spin forever in the source when no admissible Problem index exists. The model stops when the draws run out.
- Gvns.ShakeAndDescend: the inner loop is bounded by the draw stream, not proved to terminate on its own.
- Gvns.Descend: the local search gets `fuel` rounds. A descent that runs out of fuel is reported as `truncated` by `Gvns.ShakeAndDescend` and `Gvns.GvnsSolve`, and ends the run without its result being compared; the source's descent always runs to convergence.

=== FILE: construction.dfy ===
/** The randomised greedy construction that opens both drivers
    (include/grasp.h:40-72 and include/gvns.h:38-70). Every draw of a uniform
    integer generator over [0, r) is `draws[pos] % r` for the next unread
    position of a supplied stream; running out of draws is reported, not hidden. */
module Construction {
  import opened Problems
  import opened Solutions

  /** `order` lists 0 .. n-1, each once. */
  predicate IsPermutation(order: seq<int>, n: nat) {
    && |order| == n
    && (forall a :: 0 <= a < n ==> 0 <= order[a] < n)
    && (forall a, b :: 0 <= a < b < n ==> order[a] != order[b])
  }

  /** `order` lists indices of `keys` in ascending key order. */
  predicate SortedBy(keys: seq<real>, order: seq<int>)
    requires forall a :: 0 <= a < |order| ==> 0 <= order[a] < |keys|
  {
    forall a, b :: 0 <= a < b < |order| ==> keys[order[a]] <= keys[order[b]]
  }

  /** The number of facilities the construction ends with: the first one is
      pushed unconditionally, more while the size is below k. */
  function Target(k: int): nat {
    if k < 1 then 1 else k
  }

  /** One inner step of the distance-array loop: slot i takes d when d is
      strictly smaller (and, when zeros are skipped, not 0). */
  function Lower(keys: seq<real>, i: int, d: real, skipZero: bool): (r: seq<real>)
    ensures |r| == |keys|
    ensures forall t :: 0 <= t < |r| ==> r[t] <= keys[t]
    ensures forall t :: 0 <= t < |r| && t != i ==> r[t] == keys[t]
    ensures 0 <= i < |keys| && skipZero && d == 0.0 ==> r == keys
    ensures 0 <= i < |keys| && d < keys[i] && (!skipZero || d != 0.0) ==> r == keys[i := d]
    ensures r == keys || (0 <= i < |keys| && r == keys[i := d])
  {
    if 0 <= i < |keys| && d < keys[i] && (!skipZero || d != 0.0) then keys[i := d] else keys
  }

  /** The distance array of one construction step: zero-initialised, then
      lowered to any strictly smaller distance from point i to a facility
      (GRASP also skips zero distances). Distances are never negative, so
      nothing is ever strictly below the initial 0. */
  method CandidateDistances(dist: Metric, P: Problem, fs: seq<Point>, skipZero: bool)
    returns (keys: seq<real>)
    ensures |keys| == |P.points|
    ensures forall i :: 0 <= i < |keys| ==> keys[i] == 0.0
    ensures forall i, j :: 0 <= i < |keys| && 0 <= j < |fs| ==> keys[i] <= dist(P.points[i], fs[j])
  {
    keys := seq(|P.points|, _ => 0.0);
    for i := 0 to |P.points|
      invariant |keys| == |P.points|
      invariant forall t :: 0 <= t < |keys| ==> keys[t] == 0.0
    {
      for j := 0 to |fs|
        invariant |keys| == |P.points|
        invariant forall t :: 0 <= t < |keys| ==> keys[t] == 0.0
      {
        keys := Lower(keys, i, dist(P.points[i], fs[j]), skipZero);
      }
    }
  }

  /** With every key equal, any permutation is an ascending order; this is the
      only thing known about what `std::sort` leaves, as it is not stable. */
  lemma EqualKeysSortAnyOrder(keys: seq<real>, order: seq<int>)
    requires IsPermutation(order, |keys|)
    requires forall i :: 0 <= i < |keys| ==> keys[i] == 0.0
    ensures SortedBy(keys, order)
  {
  }

  /** The restricted candidate list: the first `size` indices of the ascending
      order, so each candidate's key is at most every excluded index's key. */
  method RestrictedCandidateList(keys: seq<real>, order: seq<int>, size: int) returns (rcl: seq<int>)
    requires IsPermutation(order, |keys|) && SortedBy(keys, order)
    requires size <= |keys|
    ensures |rcl| == (if size < 0 then 0 else size)
    ensures forall a :: 0 <= a < |rcl| ==> 0 <= rcl[a] < |keys| && rcl[a] == order[a]
    ensures forall a, b :: 0 <= a < b < |rcl| ==> rcl[a] != rcl[b]
    ensures forall a, b :: 0 <= a < |rcl| && |rcl| <= b < |keys| ==> keys[rcl[a]] <= keys[order[b]]
  {
    rcl := [];
    var i := 0;
    while i < size
      invariant 0 <= i <= (if size < 0 then 0 else size)
      invariant |rcl| == i
      invariant forall a :: 0 <= a < i ==> rcl[a] == order[a]
    {
      rcl := rcl + [order[i]];
      i := i + 1;
    }
    forall a, b | 0 <= a < b < |rcl|
      ensures rcl[a] != rcl[b]
    {
      assert rcl[a] == order[a] && rcl[b] == order[b];
    }
    forall a, b | 0 <= a < |rcl| && |rcl| <= b < |keys|
      ensures keys[rcl[a]] <= keys[order[b]]
    {
      assert rcl[a] == order[a];
    }
  }

  /** The construction. The first facility is the Problem point of the first
      draw over [0, n); each further one is the Problem point at a uniformly
      drawn position of the candidate list, until Target(k) facilities are in.
      `ok` is false exactly when the stream has too few draws. */
  method Construct(dist: Metric, P: Problem, k: int, rclSize: int, order: seq<int>,
                   skipZero: bool, draws: seq<nat>, pos: nat)
    returns (ok: bool, sol: Solution, next: nat)
    requires |P.points| >= 1
    requires IsPermutation(order, |P.points|)
    requires k >= 2 ==> 1 <= rclSize <= |P.points|
    ensures ok <==> pos + Target(k) <= |draws|
    ensures ok ==> next == pos + Target(k)
    ensures ok ==> |sol.facilities| == Target(k) && sol.dimensions == Dimensions(P)
    ensures ok ==> sol.facilities[0] == P.points[draws[pos] % |P.points|]
    ensures ok ==> forall t :: 1 <= t < Target(k) ==>
      sol.facilities[t] == P.points[order[draws[pos + t] % rclSize]]
    ensures ok ==> forall f :: f in sol.facilities ==> f in P.points
  {
    var n := |P.points|;
    sol := Solution([], Dimensions(P));
    if pos >= |draws| {
      return false, sol, pos;
    }
    sol := Solution([P.points[draws[pos] % n]], sol.dimensions);
    next := pos + 1;
    while |sol.facilities| < k
      invariant 1 <= |sol.facilities| <= Target(k)
      invariant next == pos + |sol.facilities| <= |draws|
      invariant sol.dimensions == Dimensions(P)
      invariant sol.facilities[0] == P.points[draws[pos] % n]
      invariant forall t :: 1 <= t < |sol.facilities| ==>
        sol.facilities[t] == P.points[order[draws[pos + t] % rclSize]]
      invariant forall f :: f in sol.facilities ==> f in P.points
      decreases k - |sol.facilities|
    {
      var keys := CandidateDistances(dist, P, sol.facilities, skipZero);
      EqualKeysSortAnyOrder(keys, order);
      var rcl := RestrictedCandidateList(keys, order, rclSize);
      if next >= |draws| {
        return false, sol, next;
      }
      var pick := rcl[draws[next] % |rcl|];
      sol := Solution(sol.facilities + [P.points[pick]], sol.dimensions);
      next := next + 1;
    }
    ok := true;
  }
}

=== FILE: grasp.dfy ===
/** `Grasp::solve` of include/grasp.h: construct, keep the construction when it
    beats the last kept one, and stop after 200 constructions in a row that do not. */
module Grasp {
  import opened Problems
  import opened Solutions
  import opened Construction
  import opened Traces

  /** Consecutive constructions without improvement that end the run. */
  const StrikeLimit: nat := 200

  /** What the driver maintains between constructions: `built` lists every
      construction, `trace` the kept ones, starting with the first; the last
      kept one is the cheapest so far; and `strikes` counts the constructions
      since it was kept. */
  predicate Kept(dist: Metric, P: Problem, k: int, trace: seq<Solution>, built: seq<Solution>, strikes: nat) {
    && (forall t :: 0 <= t < |built| ==>
          |built[t].facilities| == Target(k) && forall f :: f in built[t].facilities ==> f in P.points)
    && (forall t :: 0 <= t < |trace| ==> trace[t] in built)
    && StrictlyImproving(dist, P, trace)
    && (|trace| >= 1 <==> |built| >= 1)
    && strikes <= StrikeLimit
    && (|built| == 0 ==> strikes == 0)
    && (|built| >= 1 ==>
          && trace[0] == built[0]
          && strikes < |built|
          && built[|built| - 1 - strikes] == trace[|trace| - 1]
          && forall t :: 0 <= t < |built| ==> Cost(dist, P, trace[|trace| - 1]) <= Cost(dist, P, built[t]))
  }

  /** Keeping a construction that beats the last kept one restores the
      invariant with the strikes cleared. */
  lemma KeptAfterImprovement(dist: Metric, P: Problem, k: int, trace: seq<Solution>, built: seq<Solution>,
                             strikes: nat, sol: Solution)
    requires Kept(dist, P, k, trace, built, strikes)
    requires |sol.facilities| == Target(k) && forall f :: f in sol.facilities ==> f in P.points
    requires |trace| == 0 || Cost(dist, P, sol) < Cost(dist, P, trace[|trace| - 1])
    requires StrictlyImproving(dist, P, trace + [sol])
    ensures Kept(dist, P, k, trace + [sol], built + [sol], 0)
  {
    var built' := built + [sol];
    forall t | 0 <= t < |built'|
      ensures Cost(dist, P, sol) <= Cost(dist, P, built'[t])
    {
      if t < |built| {
        assert Cost(dist, P, trace[|trace| - 1]) <= Cost(dist, P, built[t]);
      }
    }
  }

  /** A construction that does not beat the last kept one adds a strike. */
  lemma KeptAfterStrike(dist: Metric, P: Problem, k: int, trace: seq<Solution>, built: seq<Solution>,
                        strikes: nat, sol: Solution)
    requires Kept(dist, P, k, trace, built, strikes) && strikes < StrikeLimit
    requires |sol.facilities| == Target(k) && forall f :: f in sol.facilities ==> f in P.points
    requires |trace| >= 1 && Cost(dist, P, sol) >= Cost(dist, P, trace[|trace| - 1])
    ensures Kept(dist, P, k, trace, built + [sol], strikes + 1)
  {
    var built' := built + [sol];
    assert built'[|built'| - 1 - (strikes + 1)] == built[|built| - 1 - strikes];
  }

  /** Lines 77-81: count a strike, and keep the construction (clearing the
      strikes) when it beats the last kept one. */
  method Record(dist: Metric, P: Problem, k: int, trace: seq<Solution>, built: seq<Solution>, strikes: nat, sol: Solution)
    returns (trace': seq<Solution>, built': seq<Solution>, strikes': nat)
    requires Kept(dist, P, k, trace, built, strikes) && strikes < StrikeLimit
    requires |sol.facilities| == Target(k) && forall f :: f in sol.facilities ==> f in P.points
    ensures Kept(dist, P, k, trace', built', strikes')
    ensures built' == built + [sol]
    ensures trace' == trace + [sol] || trace' == trace
    ensures trace' == trace + [sol] <==> |trace| == 0 || Cost(dist, P, sol) < Cost(dist, P, trace[|trace| - 1])
    ensures strikes' == if trace' == trace then strikes + 1 else 0
  {
    built' := built + [sol];
    var improves := BeatsLast(dist, P, trace, sol);
    if improves {
      KeptAfterImprovement(dist, P, k, trace, built, strikes, sol);
      trace', strikes' := trace + [sol], 0;
      assert |trace'| != |trace|;
    } else {
      KeptAfterStrike(dist, P, k, trace, built, strikes, sol);
      trace', strikes' := trace, strikes + 1;
    }
  }

  /** The GRASP driver. The run ends when 200 constructions in a row fail to
      improve, or, with `exhausted`, when the draw stream cannot supply
      another construction. */
  method GraspSolve(dist: Metric, P: Problem, k: int, rclSize: int, order: seq<int>, draws: seq<nat>)
    returns (trace: seq<Solution>, built: seq<Solution>, strikes: nat, exhausted: bool)
    requires |P.points| >= 1
    requires IsPermutation(order, |P.points|)
    requires k >= 2 ==> 1 <= rclSize <= |P.points|
    ensures Kept(dist, P, k, trace, built, strikes)
    ensures !exhausted ==> strikes == StrikeLimit
    ensures Target(k) <= |draws| ==> |trace| >= 1
  {
    trace, built, strikes, exhausted := [], [], 0, false;
    var pos: nat := 0;
    while strikes < StrikeLimit && !exhausted
      invariant pos <= |draws|
      invariant Kept(dist, P, k, trace, built, strikes)
      invariant |built| == 0 ==> pos == 0
      invariant exhausted ==> |draws| < pos + Target(k)
      decreases |draws| - pos, if exhausted then 0 else 1
    {
      var ok, sol, next := Construct(dist, P, k, rclSize, order, true, draws, pos);
      if !ok {
        exhausted := true;
      } else {
        pos := next;
        trace, built, strikes := Record(dist, P, k, trace, built, strikes, sol);
      }
    }
  }
}

=== FILE: gvns.dfy ===
/** `GVNS::solve` of include/gvns.h: construct once, then repeatedly shake the
    incumbent in a growing number of positions, descend with local search,
    and move to the result when it is strictly cheaper. */
module Gvns {
  import opened Problems
  import opened Solutions
  import opened Repairs
  import opened Descent
  import opened Construction
  import opened Traces

  /** Outer iterations without a new trace entry that end the run. */
  const StaleLimit: nat := 200

  /** Outer iterations that end the run. */
  const IterationLimit: nat := 3000

  /** The candidate-list size of the GVNS construction. */
  const ListSize: nat := 3

  /** Solution membership test (`isInSolution`), called at include/gvns.h:95
      and declared in none of include/problem.h, include/solution.h or
      include/utilities.h: supplied by the caller. */
  type Membership = (seq<Point>, Point) -> bool

  /** The values in xs are pairwise different. */
  predicate Distinct(xs: seq<int>) {
    forall a, b :: 0 <= a < b < |xs| ==> xs[a] != xs[b]
  }

  /** Lines 80-88: draw positions of `sol` until `size` different ones are
      held, rejecting repeats. `ok` is false when the stream ends first. */
  method SelectPositions(m: nat, size: nat, draws: seq<nat>, pos: nat)
    returns (ok: bool, selected: seq<int>, next: nat)
    requires 1 <= m && pos <= |draws|
    ensures pos <= next <= |draws|
    ensures ok <==> |selected| == size
    ensures !ok ==> next == |draws|
    ensures |selected| <= size && Distinct(selected)
    ensures forall a :: 0 <= a < |selected| ==> 0 <= selected[a] < m
    ensures |selected| > 0 ==> next > pos
  {
    selected, next := [], pos;
    while |selected| < size && next < |draws|
      invariant pos <= next <= |draws|
      invariant |selected| <= size && Distinct(selected)
      invariant forall a :: 0 <= a < |selected| ==> 0 <= selected[a] < m
      invariant |selected| > 0 ==> next > pos
      decreases |draws| - next
    {
      var point := draws[next] % m;
      next := next + 1;
      if point !in selected {
        selected := selected + [point];
      }
    }
    ok := |selected| == size;
  }

  /** Lines 89-98: draw Problem indices until `size` are held, rejecting an
      index that equals one of the selected positions or whose point the
      membership test finds in the solution. Repeats are not rejected. */
  method SelectReplacements(P: Problem, fs: seq<Point>, inSolution: Membership, selected: seq<int>,
                            size: nat, draws: seq<nat>, pos: nat)
    returns (ok: bool, replacements: seq<int>, next: nat)
    requires 1 <= |P.points| && pos <= |draws|
    ensures pos <= next <= |draws|
    ensures ok <==> |replacements| == size
    ensures !ok ==> next == |draws|
    ensures |replacements| <= size
    ensures forall a :: 0 <= a < |replacements| ==>
      && 0 <= replacements[a] < |P.points|
      && replacements[a] !in selected
      && !inSolution(fs, P.points[replacements[a]])
    ensures |replacements| > 0 ==> next > pos
  {
    replacements, next := [], pos;
    while |replacements| < size && next < |draws|
      invariant pos <= next <= |draws|
      invariant |replacements| <= size
      invariant forall a :: 0 <= a < |replacements| ==>
        && 0 <= replacements[a] < |P.points|
        && replacements[a] !in selected
        && !inSolution(fs, P.points[replacements[a]])
      invariant |replacements| > 0 ==> next > pos
      decreases |draws| - next
    {
      var point := draws[next] % |P.points|;
      next := next + 1;
      if point !in selected && !inSolution(fs, P.points[point]) {
        replacements := replacements + [point];
      }
    }
    ok := |replacements| == size;
  }

  /** Lines 99-102: position selected[i] of `sol` becomes the Problem point
      replacements[i]. */
  method Swap(P: Problem, sol: Solution, selected: seq<int>, replacements: seq<int>)
    returns (shaken: Solution)
    requires |selected| == |replacements| && Distinct(selected)
    requires forall a :: 0 <= a < |selected| ==> 0 <= selected[a] < |sol.facilities|
    requires forall a :: 0 <= a < |replacements| ==> 0 <= replacements[a] < |P.points|
    ensures |shaken.facilities| == |sol.facilities| && shaken.dimensions == sol.dimensions
    ensures forall a :: 0 <= a < |selected| ==> shaken.facilities[selected[a]] == P.points[replacements[a]]
    ensures forall q :: 0 <= q < |sol.facilities| && q !in selected ==> shaken.facilities[q] == sol.facilities[q]
  {
    shaken := sol;
    for i := 0 to |selected|
      invariant |shaken.facilities| == |sol.facilities| && shaken.dimensions == sol.dimensions
      invariant forall a :: 0 <= a < i ==> shaken.facilities[selected[a]] == P.points[replacements[a]]
      invariant forall q :: 0 <= q < |sol.facilities| && q !in selected[..i] ==>
        shaken.facilities[q] == sol.facilities[q]
    {
      shaken := Exchanged(shaken, selected[i], P.points[replacements[i]]);
      assert selected[..i + 1] == selected[..i] + [selected[i]];
    }
    assert selected[..|selected|] == selected;
  }

  /** The shaking of one inner iteration, drawing from `pos` on. */
  method Shake(P: Problem, sol: Solution, size: nat, inSolution: Membership, draws: seq<nat>, pos: nat)
    returns (ok: bool, shaken: Solution, selected: seq<int>, replacements: seq<int>, next: nat)
    requires 1 <= |P.points| && 1 <= size <= |sol.facilities| && pos <= |draws|
    ensures pos < next <= |draws| || (!ok && next == |draws|)
    ensures !ok ==> next == |draws|
    ensures |shaken.facilities| == |sol.facilities| && shaken.dimensions == sol.dimensions
    ensures ok ==> |selected| == size == |replacements| && Distinct(selected)
    ensures ok ==> forall a :: 0 <= a < size ==> 0 <= selected[a] < |sol.facilities|
    ensures ok ==> forall a :: 0 <= a < size ==>
      && 0 <= replacements[a] < |P.points|
      && replacements[a] !in selected
      && !inSolution(sol.facilities, P.points[replacements[a]])
      && shaken.facilities[selected[a]] == P.points[replacements[a]]
    ensures forall q :: 0 <= q < |sol.facilities| && q !in selected ==> shaken.facilities[q] == sol.facilities[q]
    ensures forall f :: f in shaken.facilities ==> f in sol.facilities || f in P.points
  {
    ok, selected, next := SelectPositions(|sol.facilities|, size, draws, pos);
    shaken, replacements := sol, [];
    if !ok {
      return;
    }
    ok, replacements, next := SelectReplacements(P, sol.facilities, inSolution, selected, size, draws, next);
    if !ok {
      return;
    }
    shaken := Swap(P, sol, selected, replacements);
    forall f | f in shaken.facilities
      ensures f in sol.facilities || f in P.points
    {
      var q :| 0 <= q < |shaken.facilities| && shaken.facilities[q] == f;
      if q !in selected {
        assert f == sol.facilities[q];
      } else {
        var a :| 0 <= a < |selected| && selected[a] == q;
        assert f == P.points[replacements[a]];
      }
    }
  }

  /** Lines 104-108: with `rvnd` the shaken solution is compared as it is
      (the variable-neighbourhood descent is commented out); otherwise it
      goes through local search. `converged` is false when the local search
      ran out of fuel before its loop condition failed. */
  method Descend(dist: Metric, P: Problem, shaken: Solution, rvnd: bool, fuel: nat)
    returns (cand: Solution, converged: bool)
    requires |shaken.facilities| >= 1
    ensures rvnd ==> cand == shaken && converged
    ensures |cand.facilities| >= |shaken.facilities| && cand.dimensions == shaken.dimensions
    ensures Cost(dist, P, cand) <= Cost(dist, P, shaken)
    ensures forall f :: f in cand.facilities ==> f in shaken.facilities || f in P.points
    ensures !rvnd && converged && |shaken.facilities| >= 2 ==> LocalOptimum(dist, P, cand)
  {
    if rvnd {
      cand, converged := shaken, true;
    } else {
      var rounds;
      cand, converged, rounds := LocalSearch(dist, P, shaken, fuel);
    }
  }

  /** Lines 110-115: move to the candidate when it is strictly cheaper and
      shake one position again; otherwise keep the solution and shake one
      more position. */
  method Move(dist: Metric, P: Problem, current: Solution, size: nat, cand: Solution)
    returns (accepted: bool, next: Solution, nextSize: nat)
    requires |current.facilities| >= 1 && |cand.facilities| >= 1
    ensures accepted <==> Cost(dist, P, cand) < Cost(dist, P, current)
    ensures next == if accepted then cand else current
    ensures nextSize == if accepted then 1 else size + 1
  {
    var candCost := Evaluate(dist, P, cand);
    var currentCost := Evaluate(dist, P, current);
    accepted := candCost < currentCost;
    if accepted {
      next, nextSize := cand, 1;
    } else {
      next, nextSize := current, size + 1;
    }
  }

  /** The shake sizes one outer iteration goes through: the first is 1 and
      each later one is either back at 1 or one more than the one before. */
  ghost predicate ShakeSchedule(sizes: seq<nat>)
  {
    && |sizes| >= 1 && sizes[0] == 1
    && forall t :: 0 <= t < |sizes| - 1 ==> sizes[t + 1] == 1 || sizes[t + 1] == sizes[t] + 1
  }

  lemma ScheduleGrows(sizes: seq<nat>, size: nat)
    requires ShakeSchedule(sizes)
    requires size == 1 || size == sizes[|sizes| - 1] + 1
    ensures ShakeSchedule(sizes + [size])
  {
  }

  /** Lines 76-116, one outer iteration: starting from one position, shake,
      descend, and either move to a strictly cheaper result (shaking one
      position again) or shake one more position, until the shake size
      exceeds the incumbent's size. `exhausted` reports the draw stream ended;
      `truncated` reports a local search that ran out of fuel, whose result
      is then not compared. */
  method ShakeAndDescend(dist: Metric, P: Problem, incumbent: Solution, rvnd: bool, fuel: nat,
                         inSolution: Membership, draws: seq<nat>, pos: nat)
    returns (result: Solution, size: nat, exhausted: bool, truncated: bool, next: nat, ghost sizes: seq<nat>)
    requires 1 <= |P.points| && 1 <= |incumbent.facilities| && pos <= |draws|
    requires forall f :: f in incumbent.facilities ==> f in P.points
    ensures pos <= next <= |draws|
    ensures exhausted ==> next == |draws|
    ensures rvnd ==> !truncated
    ensures |result.facilities| >= |incumbent.facilities| && result.dimensions == incumbent.dimensions
    ensures forall f :: f in result.facilities ==> f in P.points
    ensures result == incumbent || Cost(dist, P, result) < Cost(dist, P, incumbent)
    ensures Cost(dist, P, result) <= Cost(dist, P, incumbent)
    ensures !rvnd && result != incumbent && |incumbent.facilities| >= 2 ==> LocalOptimum(dist, P, result)
    ensures 1 <= size <= |result.facilities| + 1
    ensures !exhausted && !truncated ==> size == |result.facilities| + 1
    ensures ShakeSchedule(sizes)
  {
    result, size, exhausted, truncated, next := incumbent, 1, false, false, pos;
    sizes := [1];
    while size <= |result.facilities| && !exhausted && !truncated
      invariant pos <= next <= |draws|
      invariant exhausted ==> next == |draws|
      invariant rvnd ==> !truncated
      invariant |result.facilities| >= |incumbent.facilities| && result.dimensions == incumbent.dimensions
      invariant forall f :: f in result.facilities ==> f in P.points
      invariant result == incumbent || Cost(dist, P, result) < Cost(dist, P, incumbent)
      invariant Cost(dist, P, result) <= Cost(dist, P, incumbent)
      invariant !rvnd && result != incumbent && |incumbent.facilities| >= 2 ==> LocalOptimum(dist, P, result)
      invariant 1 <= size <= |result.facilities| + 1
      invariant ShakeSchedule(sizes) && sizes[|sizes| - 1] == size
      decreases |draws| - next, if exhausted || truncated then 0 else 1
    {
      var ok, shaken, selected, replacements, after := Shake(P, result, size, inSolution, draws, next);
      next := after;
      if !ok {
        exhausted := true;
      } else {
        var cand, converged := Descend(dist, P, shaken, rvnd, fuel);
        if !converged {
          truncated := true;
        } else {
          var accepted;
          accepted, result, size := Move(dist, P, result, size, cand);
          ScheduleGrows(sizes, size);
          sizes := sizes + [size];
        }
      }
    }
  }

  /** Lines 117-123: count an iteration without improvement, and record the
      incumbent (clearing the count) when it beats the last recorded one. */
  method Record(dist: Metric, P: Problem, trace: seq<Solution>, sol: Solution, stale: nat)
    returns (trace': seq<Solution>, stale': nat)
    requires |sol.facilities| >= 1
    requires StrictlyImproving(dist, P, trace)
    ensures StrictlyImproving(dist, P, trace')
    ensures trace' == trace + [sol] || trace' == trace
    ensures trace' == trace + [sol] <==> |trace| == 0 || Cost(dist, P, sol) < Cost(dist, P, trace[|trace| - 1])
    ensures stale' == if trace' == trace then stale + 1 else 0
  {
    var improves := BeatsLast(dist, P, trace, sol);
    if improves {
      trace', stale' := trace + [sol], 0;
      assert |trace'| != |trace|;
    } else {
      trace', stale' := trace, stale + 1;
    }
  }

  /** The GVNS driver. The construction uses a candidate list of ListSize
      without skipping zero distances, and is not followed by local search.
      `constructed` is false when the draw stream is too short to build the
      first solution; `exhausted` reports any early end of the stream, and
      `truncated` a local search that ran out of fuel. */
  method GvnsSolve(dist: Metric, P: Problem, k: int, rvnd: bool, order: seq<int>,
                   inSolution: Membership, draws: seq<nat>, fuel: nat)
    returns (trace: seq<Solution>, initial: Solution, incumbent: Solution, constructed: bool,
             iterations: nat, stale: nat, exhausted: bool, truncated: bool)
    requires |P.points| >= 1
    requires IsPermutation(order, |P.points|)
    requires k >= 2 ==> ListSize <= |P.points|
    ensures constructed <==> Target(k) <= |draws|
    ensures !constructed ==> trace == [] && exhausted
    ensures StrictlyImproving(dist, P, trace)
    ensures iterations <= IterationLimit && stale <= StaleLimit && stale <= iterations
    ensures rvnd ==> !truncated
    ensures !exhausted && !truncated ==> stale == StaleLimit || iterations == IterationLimit
    ensures constructed ==> |initial.facilities| == Target(k) && initial.dimensions == Dimensions(P)
    ensures constructed ==> |trace| >= 1 && trace[|trace| - 1] == incumbent
    ensures constructed ==> |incumbent.facilities| >= Target(k) && incumbent.dimensions == Dimensions(P)
    ensures constructed ==> Cost(dist, P, incumbent) <= Cost(dist, P, initial)
    ensures constructed ==> forall f :: f in incumbent.facilities ==> f in P.points
    ensures constructed && !rvnd && incumbent != initial && Target(k) >= 2 ==> LocalOptimum(dist, P, incumbent)
    ensures constructed ==> initial.facilities[0] == P.points[draws[0] % |P.points|]
    ensures constructed ==> forall t :: 1 <= t < Target(k) ==> initial.facilities[t] == P.points[order[draws[t] % ListSize]]
  {
    var pos: nat;
    constructed, initial, pos := Construct(dist, P, k, ListSize, order, false, draws, 0);
    trace, incumbent, iterations, stale, exhausted, truncated := [], initial, 0, 0, !constructed, false;
    if !constructed {
      return;
    }
    while stale < StaleLimit && iterations < IterationLimit && !exhausted && !truncated
      invariant pos <= |draws|
      invariant rvnd ==> !truncated
      invariant StrictlyImproving(dist, P, trace)
      invariant iterations <= IterationLimit && stale <= StaleLimit && stale <= iterations
      invariant iterations == 0 ==> trace == [] && !exhausted && !truncated
      invariant iterations >= 1 ==> |trace| >= 1 && trace[|trace| - 1] == incumbent
      invariant |incumbent.facilities| >= Target(k) && incumbent.dimensions == Dimensions(P)
      invariant Cost(dist, P, incumbent) <= Cost(dist, P, initial)
      invariant forall f :: f in incumbent.facilities ==> f in P.points
      invariant !rvnd && incumbent != initial && Target(k) >= 2 ==> LocalOptimum(dist, P, incumbent)
      decreases IterationLimit - iterations
    {
      var size;
      var result;
      ghost var sizes;
      result, size, exhausted, truncated, pos, sizes := ShakeAndDescend(dist, P, incumbent, rvnd, fuel, inSolution, draws, pos);
      assert result == incumbent || Cost(dist, P, result) < Cost(dist, P, incumbent);
      incumbent := result;
      iterations := iterations + 1;
      trace, stale := Record(dist, P, trace, incumbent, stale);
    }
  }
}

=== FILE: local_search.dfy ===
/** `Solution::local_search` of include/solution.h: a descent that, on every
    round, tries exchange, then insertion, then elimination, and moves to the
    first result whose true cost is strictly lower. */
module Descent {
  import opened Options
  import opened Problems
  import opened Solutions
  import opened Neighbourhoods

  /** No exchange neighbour is strictly cheaper, and no insertion is cheaper
      by the 0.2 insertion penalty. */
  predicate LocalOptimum(dist: Metric, P: Problem, s: Solution)
    requires |s.facilities| >= 1
  {
    ExchangeOptimal(dist, P, s) && InsertionOptimal(dist, P, s)
  }

  /** A cache with the lowest attaining position in every slot satisfies the
      cache invariant. */
  lemma CanonicalIsConsistent(dist: Metric, P: Problem, fs: seq<Point>, idx: DistanceIndex)
    requires Canonical(dist, P, fs, idx)
    ensures Consistent(dist, P, fs, idx)
  {
  }

  /** The exchange phase of a round, from `best` and its evaluated cache.
      With two or more facilities it changes `best` only for a strictly cheaper
      solution, and keeps it exactly when no exchange neighbour is cheaper. */
  method ExchangePhase(dist: Metric, P: Problem, best: Solution, idx: DistanceIndex)
    returns (n1: Solution, v1: real, d1: DistanceIndex)
    requires |best.facilities| >= 1
    requires Canonical(dist, P, best.facilities, idx)
    ensures |n1.facilities| == |best.facilities| && n1.dimensions == best.dimensions
    ensures forall f :: f in n1.facilities ==> f in best.facilities || f in P.points
    ensures Canonical(dist, P, n1.facilities, d1) && v1 == Cost(dist, P, n1)
    ensures |best.facilities| >= 2 ==> (n1 == best || v1 < Cost(dist, P, best))
    ensures |best.facilities| >= 2 ==> (n1 == best <==> ExchangeOptimal(dist, P, best))
    ensures n1 == ExchangeSearch(dist, P, best, idx) && d1 == NearestIndex(dist, P, n1.facilities)
  {
    n1 := ExchangeSearch(dist, P, best, idx);
    v1, d1 := EvaluateIndexed(dist, P, n1);
    CanonicalIsNearestIndex(dist, P, n1.facilities, d1);
    if |best.facilities| >= 2 {
      CanonicalIsConsistent(dist, P, best.facilities, idx);
      ExchangeSearchIsBestNeighbour(dist, P, best, idx);
    }
  }

  /** The insertion phase, reading the cache `d1` the exchange phase left.
      From a cache consistent with `best`, it keeps `best` exactly when no
      insertion clears the 0.2 penalty, and otherwise appends a point that does. */
  method InsertionPhase(dist: Metric, P: Problem, best: Solution, d1: DistanceIndex)
    returns (n2: Solution)
    requires |best.facilities| >= 1 && |d1| == |P.points|
    ensures |n2.facilities| >= |best.facilities| && n2.dimensions == best.dimensions
    ensures forall f :: f in n2.facilities ==> f in best.facilities || f in P.points
    ensures Consistent(dist, P, best.facilities, d1) ==>
      && (n2 == best || Cost(dist, P, n2) < Cost(dist, P, best))
      && (n2 == best <==> InsertionOptimal(dist, P, best))
    ensures n2 == InsertionSearch(dist, P, best, d1)
  {
    n2 := InsertionSearch(dist, P, best, d1);
    if Consistent(dist, P, best.facilities, d1) {
      InsertionSearchCutsCost(dist, P, best, d1);
      CostNonNegative(dist, P, best);
    }
  }

  /** The elimination phase, reading the cache `d2` the insertion phase left.
      From a cache consistent with `best` and two or more facilities, its
      result is never strictly cheaper. */
  method EliminationPhase(dist: Metric, P: Problem, best: Solution, d2: DistanceIndex)
    returns (n3: Solution)
    requires |best.facilities| >= 1 && |d2| == |P.points|
    ensures |n3.facilities| >= |best.facilities| - 1 && n3.dimensions == best.dimensions
    ensures forall f :: f in n3.facilities ==> f in best.facilities
    ensures |best.facilities| >= 2 && Consistent(dist, P, best.facilities, d2) ==>
      |n3.facilities| >= 1 && Cost(dist, P, n3) >= Cost(dist, P, best)
    ensures n3 == EliminationSearch(dist, P, best, d2)
  {
    n3 := EliminationSearch(dist, P, best, d2);
    if |best.facilities| >= 2 && Consistent(dist, P, best.facilities, d2) {
      EliminationSearchNeverLowersCost(dist, P, best, d2);
    }
  }

  /** The rest of a pass once the exchange step has failed: insertion with
      the cache the exchange step left, then, only if that fails too,
      elimination with the insertion result's cache (`eliminated` is None
      when it is not reached). */
  method InsertThenEliminate(dist: Metric, P: Problem, best: Solution, bestCost: real, d1: DistanceIndex)
    returns (improved: bool, next: Solution, nextCost: real, nextIdx: DistanceIndex,
             inserted: Solution, eliminated: Option<Solution>)
    requires |best.facilities| >= 1 && |d1| == |P.points|
    requires bestCost == Cost(dist, P, best)
    requires |best.facilities| >= 2 ==> Consistent(dist, P, best.facilities, d1)
    ensures improved ==> |next.facilities| >= 1 && next.dimensions == best.dimensions
    ensures improved ==> nextCost == Cost(dist, P, next) && nextCost < bestCost
    ensures improved ==> Canonical(dist, P, next.facilities, nextIdx)
    ensures improved ==> forall f :: f in next.facilities ==> f in best.facilities || f in P.points
    ensures |best.facilities| >= 2 ==> (!improved <==> InsertionOptimal(dist, P, best))
    ensures |best.facilities| >= 2 && improved ==> |next.facilities| >= |best.facilities|
    ensures |inserted.facilities| >= 1
    ensures eliminated.Some? <==> Cost(dist, P, inserted) >= bestCost
    ensures improved ==> next == if eliminated.Some? then eliminated.value else inserted
    ensures !improved ==> next == best && eliminated.Some?
    ensures !improved ==> |eliminated.value.facilities| == 0 || Cost(dist, P, eliminated.value) >= bestCost
    ensures inserted == InsertionSearch(dist, P, best, d1)
    ensures eliminated.Some? ==> eliminated.value == EliminationSearch(dist, P, best, NearestIndex(dist, P, inserted.facilities))
  {
    inserted := InsertionPhase(dist, P, best, d1);
    var v2, d2 := EvaluateIndexed(dist, P, inserted);
    CanonicalIsNearestIndex(dist, P, inserted.facilities, d2);
    if v2 < bestCost {
      return true, inserted, v2, d2, inserted, None;
    }
    if |best.facilities| >= 2 {
      assert inserted == best;
      CanonicalIsConsistent(dist, P, best.facilities, d2);
    }
    var n3 := EliminationPhase(dist, P, best, d2);
    eliminated := Some(n3);
    if |n3.facilities| == 0 {
      // evaluate of an empty solution: +infinity with demand points, 0 without
      return false, best, bestCost, d1, inserted, eliminated;
    }
    var v3, d3 := EvaluateIndexed(dist, P, n3);
    if v3 < bestCost {
      return true, n3, v3, d3, inserted, eliminated;
    }
    return false, best, bestCost, d1, inserted, eliminated;
  }

  /** One pass of the do-while body. `improved` is the loop condition; when it
      holds, `next` is the phase result that won, with its cost and cache.
      `exchanged`, `inserted` and `eliminated` are the step results in the
      order the pass computes them; a step that is not reached is None. */
  method Round(dist: Metric, P: Problem, best: Solution, bestCost: real, idx: DistanceIndex)
    returns (improved: bool, next: Solution, nextCost: real, nextIdx: DistanceIndex,
             exchanged: Solution, inserted: Option<Solution>, eliminated: Option<Solution>)
    requires |best.facilities| >= 1 && |idx| == |P.points|
    requires bestCost == Cost(dist, P, best) && Canonical(dist, P, best.facilities, idx)
    ensures improved ==> |next.facilities| >= 1 && next.dimensions == best.dimensions
    ensures improved ==> nextCost == Cost(dist, P, next) && nextCost < bestCost
    ensures improved ==> Canonical(dist, P, next.facilities, nextIdx)
    ensures improved ==> forall f :: f in next.facilities ==> f in best.facilities || f in P.points
    ensures |best.facilities| >= 2 && improved ==> |next.facilities| >= |best.facilities|
    ensures |exchanged.facilities| >= 1
    ensures inserted.Some? <==> Cost(dist, P, exchanged) >= bestCost
    ensures inserted.Some? ==> |inserted.value.facilities| >= 1
    ensures eliminated.Some? <==> inserted.Some? && Cost(dist, P, inserted.value) >= bestCost
    ensures improved ==> next == if eliminated.Some? then eliminated.value else if inserted.Some? then inserted.value else exchanged
    ensures !improved ==> next == best && eliminated.Some?
    ensures !improved ==> |eliminated.value.facilities| == 0 || Cost(dist, P, eliminated.value) >= bestCost
    ensures exchanged == ExchangeSearch(dist, P, best, idx)
    ensures inserted.Some? ==>
      inserted.value == InsertionSearch(dist, P, best, NearestIndex(dist, P, exchanged.facilities))
    ensures eliminated.Some? ==>
      eliminated.value == EliminationSearch(dist, P, best, NearestIndex(dist, P, inserted.value.facilities))
    ensures |best.facilities| >= 2 ==> (!improved <==> LocalOptimum(dist, P, best))
  {
    var v1, d1;
    exchanged, v1, d1 := ExchangePhase(dist, P, best, idx);
    if v1 < bestCost {
      return true, exchanged, v1, d1, exchanged, None, None;
    }
    if |best.facilities| >= 2 {
      assert exchanged == best;
      CanonicalIsConsistent(dist, P, best.facilities, d1);
    }
    var n2;
    improved, next, nextCost, nextIdx, n2, eliminated := InsertThenEliminate(dist, P, best, bestCost, d1);
    inserted := Some(n2);
    if !improved {
      next, nextCost, nextIdx := best, bestCost, idx;
    }
  }

  /** local_search: rounds run while the last one improved. `fuel` bounds the
      number of further rounds after an improving one; `converged` says the
      loop ended because a round failed. */
  method LocalSearch(dist: Metric, P: Problem, sol: Solution, fuel: nat)
    returns (best: Solution, converged: bool, rounds: nat)
    requires |sol.facilities| >= 1
    ensures |best.facilities| >= 1 && best.dimensions == sol.dimensions
    ensures Cost(dist, P, best) <= Cost(dist, P, sol)
    ensures best == sol || Cost(dist, P, best) < Cost(dist, P, sol)
    ensures forall f :: f in best.facilities ==> f in sol.facilities || f in P.points
    ensures 1 <= rounds <= fuel + 1 && (!converged ==> rounds == fuel + 1)
    ensures |sol.facilities| >= 2 ==> |best.facilities| >= |sol.facilities|
    ensures |sol.facilities| >= 2 ==> (best == sol <==> LocalOptimum(dist, P, sol))
    ensures |sol.facilities| >= 2 && converged ==> LocalOptimum(dist, P, best)
  {
    var bestCost, idx := EvaluateIndexed(dist, P, sol);
    best, converged, rounds := sol, false, 0;
    var going := true;
    while going
      invariant |best.facilities| >= 1 && best.dimensions == sol.dimensions
      invariant bestCost == Cost(dist, P, best) && Canonical(dist, P, best.facilities, idx)
      invariant best == sol || bestCost < Cost(dist, P, sol)
      invariant bestCost <= Cost(dist, P, sol)
      invariant forall f :: f in best.facilities ==> f in sol.facilities || f in P.points
      invariant rounds <= fuel + 1
      invariant going ==> !converged && rounds <= fuel && (rounds == 0 ==> best == sol)
      invariant !going ==> 1 <= rounds && (!converged ==> rounds == fuel + 1)
      invariant |sol.facilities| >= 2 ==> |best.facilities| >= |sol.facilities|
      invariant |sol.facilities| >= 2 && LocalOptimum(dist, P, sol) ==> best == sol && (!going ==> converged)
      invariant |sol.facilities| >= 2 && !going && best == sol ==> LocalOptimum(dist, P, sol)
      invariant |sol.facilities| >= 2 && converged ==> LocalOptimum(dist, P, best)
      decreases fuel + 1 - rounds, going
    {
      var improved, next, nextCost, nextIdx, _, _, _ := Round(dist, P, best, bestCost, idx);
      rounds := rounds + 1;
      if !improved {
        converged, going := true, false;
      } else {
        best, bestCost, idx := next, nextCost, nextIdx;
        if rounds > fuel {
          going := false;
        }
      }
    }
  }
}

=== FILE: options.dfy ===
/** An optional value, used where the solver keeps "nothing found yet". */
module Options {

  datatype Option<+T> = None | Some(value: T)
}

=== FILE: problem.dfy ===
/** The demand points of a p-median instance (include/problem.h). */
module Problems {
  import opened Options

  /** A point is its list of coordinates. */
  type Point = seq<real>

  /** The distance used everywhere in the engine. include/utilities.h defines
      it as the Euclidean distance; only its non-negativity matters here. */
  type Metric = f: (Point, Point) -> real | forall p, q :: f(p, q) >= 0.0
    witness (p: Point, q: Point) => 0.0

  /** A fixed list of demand points. */
  datatype Problem = Problem(points: seq<Point>)

  /** The origin of d-dimensional space: what `Point(d)` holds. */
  function Origin(d: nat): Point {
    seq(d, _ => 0.0)
  }

  function Size(p: Problem): nat {
    |p.points|
  }

  /** `dimensions()` reads the coordinate count of point 0, so it needs one point. */
  function Dimensions(p: Problem): nat
    requires Size(p) >= 1
  {
    |p.points[0]|
  }

  function At(p: Problem, i: int): Point
    requires 0 <= i < Size(p)
  {
    p.points[i]
  }

  /** Writing through the non-const `operator[]`: the i-th point becomes x. */
  function Update(p: Problem, i: int, x: Point): (r: Problem)
    requires 0 <= i < Size(p)
    ensures Size(r) == Size(p)
    ensures At(r, i) == x
    ensures forall k :: 0 <= k < Size(p) && k != i ==> At(r, k) == At(p, k)
  {
    Problem(p.points[i := x])
  }

  /** The constructor `Problem(n, d)`: n origin points of d coordinates each,
      pushed one by one; a negative n leaves the problem empty. With a point
      to build, a negative d makes `Point(d)` throw (`std::length_error`):
      that outcome is None. */
  method NewProblem(n: int, d: int) returns (r: Option<Problem>)
    ensures r.None? <==> n >= 1 && d < 0
    ensures r.Some? ==> Size(r.value) == if n < 0 then 0 else n
    ensures r.Some? ==> forall i :: 0 <= i < Size(r.value) ==> d >= 0 && At(r.value, i) == Origin(d)
    ensures r.Some? && n >= 1 ==> Dimensions(r.value) == d
  {
    if n >= 1 && d < 0 {
      return None;
    }
    var points: seq<Point> := [];
    var i := 0;
    while i < n
      invariant 0 <= i <= (if n < 0 then 0 else n)
      invariant |points| == i
      invariant forall t :: 0 <= t < i ==> d >= 0 && points[t] == Origin(d)
    {
      points := points + [Origin(d)];
      i := i + 1;
    }
    r := Some(Problem(points));
  }
}

=== FILE: repair.dfy ===
/** The O(n) cache repairs that price a move without re-evaluating
    (include/solution.h: evaluate_insertion, evaluate_elimination,
    evaluate_exchange). Each works on a copy of the cache; the copy is
    thrown away after its total has been read. */
module Repairs {
  import opened Options
  import opened Problems
  import opened Solutions

  /** The facility list with position gone removed (`points_.erase`). */
  function Erase(fs: seq<Point>, gone: int): (r: seq<Point>)
    requires 0 <= gone < |fs|
    ensures |r| == |fs| - 1
    ensures forall k :: 0 <= k < |r| ==> r[k] == fs[if k < gone then k else k + 1]
  {
    fs[..gone] + fs[gone + 1..]
  }

  /** `sol` with position i set to x (`new_solution[i] = problem[j]`). */
  function Exchanged(sol: Solution, i: int, x: Point): Solution
    requires 0 <= i < |sol.facilities|
  {
    Solution(sol.facilities[i := x], sol.dimensions)
  }

  /** `sol` with x appended (`new_solution.push_back(problem[j])`). */
  function Inserted(sol: Solution, x: Point): Solution {
    Solution(sol.facilities + [x], sol.dimensions)
  }

  /** `sol` with position i erased. */
  function Erased(sol: Solution, i: int): Solution
    requires 0 <= i < |sol.facilities|
  {
    Solution(Erase(sol.facilities, i), sol.dimensions)
  }

  /** e names a facility other than position gone, at minimum distance among those. */
  predicate IsNearestExcept(dist: Metric, p: Point, fs: seq<Point>, gone: int, e: Entry) {
    && 0 <= e.1 < |fs|
    && e.1 != gone
    && e.0 == dist(p, fs[e.1])
    && forall k :: 0 <= k < |fs| && k != gone ==> e.0 <= dist(p, fs[k])
  }

  // ---------------------------------------------------------------------------
  // Insertion

  /** One slot of evaluate_insertion: a strictly closer candidate takes over,
      and the slot then holds the candidate's Problem index j. */
  function InsertEntry(e: Entry, d: real, j: int): Entry {
    if d < e.0 then (d, j) else e
  }

  /** The cache copy after evaluate_insertion of Problem point j. */
  function InsertionRepair(dist: Metric, P: Problem, idx: DistanceIndex, j: int): (r: DistanceIndex)
    requires |idx| == |P.points|
    requires 0 <= j < |P.points|
    ensures |r| == |idx|
    ensures forall i :: 0 <= i < |r| ==>
      r[i] == idx[i] || (r[i] == (dist(P.points[i], P.points[j]), j) && r[i].0 < idx[i].0)
    ensures forall i :: 0 <= i < |r| && dist(P.points[i], P.points[j]) < idx[i].0 ==>
      r[i] == (dist(P.points[i], P.points[j]), j)
  {
    seq(|idx|, i requires 0 <= i < |idx| => InsertEntry(idx[i], dist(P.points[i], P.points[j]), j))
  }

  /** The value evaluate_insertion returns. */
  function InsertionCost(dist: Metric, P: Problem, idx: DistanceIndex, j: int): real
    requires |idx| == |P.points|
    requires 0 <= j < |P.points|
  {
    SumFirst(InsertionRepair(dist, P, idx, j))
  }

  // ---------------------------------------------------------------------------
  // Elimination

  /** The rescan of evaluate_elimination over positions below m, skipping gone:
      None while no position has been seen (`min_distance` still +infinity). */
  function BestExcept(dist: Metric, p: Point, fs: seq<Point>, gone: int, m: nat): (r: Option<Entry>)
    requires m <= |fs|
    ensures r.None? <==> (m == 0 || (m == 1 && gone == 0))
    ensures r.Some? ==>
      && 0 <= r.value.1 < m
      && r.value.1 != gone
      && r.value.0 == dist(p, fs[r.value.1])
      && forall k :: 0 <= k < m && k != gone ==> r.value.0 <= dist(p, fs[k])
    decreases m
  {
    if m == 0 then None
    else
      var prev := BestExcept(dist, p, fs, gone, m - 1);
      if m - 1 == gone then prev
      else
        var d := dist(p, fs[m - 1]);
        match prev
        case None => Some((d, m - 1))
        case Some(b) => if d < b.0 then Some((d, m - 1)) else prev
  }

  /** One slot of evaluate_elimination: only a slot pointing at gone is rescanned;
      if the rescan sees no facility, the slot keeps its cached value. */
  function ElimEntry(dist: Metric, p: Point, fs: seq<Point>, e: Entry, gone: int): Entry {
    if e.1 == gone then
      match BestExcept(dist, p, fs, gone, |fs|)
      case None => e
      case Some(b) => b
    else e
  }

  /** The cache copy after evaluate_elimination of position gone. */
  function EliminationRepair(dist: Metric, P: Problem, fs: seq<Point>, idx: DistanceIndex, gone: int): (r: DistanceIndex)
    requires |idx| == |P.points|
    ensures |r| == |idx|
    ensures forall i :: 0 <= i < |r| && idx[i].1 != gone ==> r[i] == idx[i]
  {
    seq(|idx|, i requires 0 <= i < |idx| => ElimEntry(dist, P.points[i], fs, idx[i], gone))
  }

  /** The value evaluate_elimination returns. */
  function EliminationCost(dist: Metric, P: Problem, fs: seq<Point>, idx: DistanceIndex, gone: int): real
    requires |idx| == |P.points|
  {
    SumFirst(EliminationRepair(dist, P, fs, idx, gone))
  }

  // ---------------------------------------------------------------------------
  // Exchange

  /** One slot of evaluate_exchange: the elimination rescan, then the incoming
      Problem point j (at x) takes over if strictly closer. */
  function ExchangeEntry(dist: Metric, p: Point, fs: seq<Point>, e: Entry, gone: int, x: Point, j: int): Entry {
    var kept := ElimEntry(dist, p, fs, e, gone);
    var d := dist(p, x);
    if kept.0 > d then (d, j) else kept
  }

  /** The cache copy after evaluate_exchange of position gone for Problem point j. */
  function ExchangeRepair(dist: Metric, P: Problem, fs: seq<Point>, idx: DistanceIndex, gone: int, j: int): (r: DistanceIndex)
    requires |idx| == |P.points|
    requires 0 <= j < |P.points|
    ensures |r| == |idx|
  {
    seq(|idx|, i requires 0 <= i < |idx| =>
      ExchangeEntry(dist, P.points[i], fs, idx[i], gone, P.points[j], j))
  }

  /** Every slot ends no farther than the incoming point, and a slot that
      neither points at the outgoing position nor loses to the incoming
      point is left as it was. */
  lemma ExchangeRepairSlots(dist: Metric, P: Problem, fs: seq<Point>, idx: DistanceIndex, gone: int, j: int)
    requires |idx| == |P.points|
    requires 0 <= j < |P.points|
    ensures var r := ExchangeRepair(dist, P, fs, idx, gone, j);
      && (forall i :: 0 <= i < |r| ==> r[i].0 <= dist(P.points[i], P.points[j]))
      && (forall i :: 0 <= i < |r| && idx[i].1 != gone && idx[i].0 <= dist(P.points[i], P.points[j]) ==>
            r[i] == idx[i])
  {
  }

  /** The value evaluate_exchange returns. */
  function ExchangeCost(dist: Metric, P: Problem, fs: seq<Point>, idx: DistanceIndex, gone: int, j: int): real
    requires |idx| == |P.points|
    requires 0 <= j < |P.points|
  {
    SumFirst(ExchangeRepair(dist, P, fs, idx, gone, j))
  }

  // ---------------------------------------------------------------------------
  // The repairs agree with a full evaluation

  /** With two or more facilities the rescan always finds a replacement slot. */
  lemma ElimEntryIsNearestExcept(dist: Metric, p: Point, fs: seq<Point>, e: Entry, gone: int)
    requires IsNearest(dist, p, fs, e)
    requires |fs| >= 2 && 0 <= gone < |fs|
    ensures IsNearestExcept(dist, p, fs, gone, ElimEntry(dist, p, fs, e, gone))
  {
  }

  /** The nearest distance after erasing gone is the minimum over the other positions. */
  lemma NearestAfterErase(dist: Metric, p: Point, fs: seq<Point>, gone: int, e: Entry)
    requires |fs| >= 2 && 0 <= gone < |fs|
    requires IsNearestExcept(dist, p, fs, gone, e)
    ensures Nearest(dist, p, Erase(fs, gone)).0 == e.0
  {
    var es := Erase(fs, gone);
    var pos := if e.1 < gone then e.1 else e.1 - 1;
    assert es[pos] == fs[e.1];
    forall k | 0 <= k < |es|
      ensures e.0 <= dist(p, es[k])
    {
      var src := if k < gone then k else k + 1;
      assert es[k] == fs[src] && src != gone;
    }
    NearestValue(dist, p, es, (e.0, pos));
  }

  /** The nearest distance after putting x at position gone is the smaller of
      the distance to x and the minimum over the other positions. */
  lemma NearestAfterReplace(dist: Metric, p: Point, fs: seq<Point>, gone: int, e: Entry, x: Point)
    requires 0 <= gone < |fs|
    requires IsNearestExcept(dist, p, fs, gone, e)
    ensures Nearest(dist, p, fs[gone := x]).0 == if e.0 > dist(p, x) then dist(p, x) else e.0
  {
    var gs := fs[gone := x];
    var d := dist(p, x);
    if e.0 > d {
      NearestValue(dist, p, gs, (d, gone));
    } else {
      assert gs[e.1] == fs[e.1];
      NearestValue(dist, p, gs, e);
    }
  }

  /** Insertion repair of a consistent cache prices the solution with Problem
      point j appended exactly as evaluate would. */
  lemma InsertionRepairIsEvaluate(dist: Metric, P: Problem, sol: Solution, idx: DistanceIndex, j: int)
    requires |sol.facilities| >= 1
    requires Consistent(dist, P, sol.facilities, idx)
    requires 0 <= j < |P.points|
    ensures InsertionCost(dist, P, idx, j)
         == Cost(dist, P, Inserted(sol, P.points[j]))
  {
    var fs := sol.facilities;
    var gs := fs + [P.points[j]];
    var rep := InsertionRepair(dist, P, idx, j);
    var ref := NearestIndex(dist, P, gs);
    assert gs[..|gs| - 1] == fs;
    forall i | 0 <= i < |rep|
      ensures rep[i].0 == ref[i].0
    {
      NearestValue(dist, P.points[i], fs, idx[i]);
    }
    SumFirstCongruent(rep, ref);
  }

  /** Elimination repair of a consistent cache over two or more facilities
      prices the solution without position gone exactly as evaluate would. */
  lemma EliminationRepairIsEvaluate(dist: Metric, P: Problem, sol: Solution, idx: DistanceIndex, gone: int)
    requires |sol.facilities| >= 2 && 0 <= gone < |sol.facilities|
    requires Consistent(dist, P, sol.facilities, idx)
    ensures EliminationCost(dist, P, sol.facilities, idx, gone)
         == Cost(dist, P, Erased(sol, gone))
  {
    var fs := sol.facilities;
    var rep := EliminationRepair(dist, P, fs, idx, gone);
    var ref := NearestIndex(dist, P, Erase(fs, gone));
    forall i | 0 <= i < |rep|
      ensures rep[i].0 == ref[i].0
    {
      ElimEntryIsNearestExcept(dist, P.points[i], fs, idx[i], gone);
      NearestAfterErase(dist, P.points[i], fs, gone, rep[i]);
    }
    SumFirstCongruent(rep, ref);
  }

  /** Exchange repair of a consistent cache over two or more facilities prices
      the solution with position gone replaced by Problem point j exactly as
      evaluate would. No repaired slot points at gone any more, unless the
      Problem index j written into it happens to equal gone. */
  lemma ExchangeRepairIsEvaluate(dist: Metric, P: Problem, sol: Solution, idx: DistanceIndex, gone: int, j: int)
    requires |sol.facilities| >= 2 && 0 <= gone < |sol.facilities|
    requires Consistent(dist, P, sol.facilities, idx)
    requires 0 <= j < |P.points|
    ensures ExchangeCost(dist, P, sol.facilities, idx, gone, j)
         == Cost(dist, P, Exchanged(sol, gone, P.points[j]))
    ensures forall i :: 0 <= i < |idx| ==>
      var r := ExchangeRepair(dist, P, sol.facilities, idx, gone, j)[i]; r.1 == j || r.1 != gone
  {
    var fs := sol.facilities;
    var rep := ExchangeRepair(dist, P, fs, idx, gone, j);
    var ref := NearestIndex(dist, P, fs[gone := P.points[j]]);
    forall i | 0 <= i < |rep|
      ensures rep[i].0 == ref[i].0
      ensures rep[i].1 == j || rep[i].1 != gone
    {
      var kept := ElimEntry(dist, P.points[i], fs, idx[i], gone);
      ElimEntryIsNearestExcept(dist, P.points[i], fs, idx[i], gone);
      NearestAfterReplace(dist, P.points[i], fs, gone, kept, P.points[j]);
    }
    SumFirstCongruent(rep, ref);
  }

  /** Removing a facility never lowers the cost of a consistent cache. */
  lemma EliminationNeverLowers(dist: Metric, P: Problem, sol: Solution, idx: DistanceIndex, gone: int)
    requires |sol.facilities| >= 2 && 0 <= gone < |sol.facilities|
    requires Consistent(dist, P, sol.facilities, idx)
    ensures EliminationCost(dist, P, sol.facilities, idx, gone) >= SumFirst(idx)
  {
    var fs := sol.facilities;
    var rep := EliminationRepair(dist, P, fs, idx, gone);
    forall i | 0 <= i < |rep|
      ensures idx[i].0 <= rep[i].0
    {
      ElimEntryIsNearestExcept(dist, P.points[i], fs, idx[i], gone);
      assert idx[i].0 <= dist(P.points[i], fs[rep[i].1]);
    }
    SumFirstMonotone(idx, rep);
  }

  /** With a single facility the rescan never sees a facility, so elimination
      leaves every slot as cached and reports the unchanged total. */
  lemma SingleFacilityEliminationKeepsCache(dist: Metric, P: Problem, fs: seq<Point>, idx: DistanceIndex)
    requires |fs| == 1
    requires |idx| == |P.points|
    ensures EliminationRepair(dist, P, fs, idx, 0) == idx
    ensures EliminationCost(dist, P, fs, idx, 0) == SumFirst(idx)
  {
    var rep := EliminationRepair(dist, P, fs, idx, 0);
    forall i | 0 <= i < |rep|
      ensures rep[i] == idx[i]
    {
      assert BestExcept(dist, P.points[i], fs, 0, 1).None?;
    }
  }

  /** With a single facility, exchange repair degenerates into insertion repair:
      the outgoing facility's distances are never removed from the cache. */
  lemma SingleFacilityExchangeIsInsertion(dist: Metric, P: Problem, fs: seq<Point>, idx: DistanceIndex, j: int)
    requires |fs| == 1
    requires |idx| == |P.points|
    requires 0 <= j < |P.points|
    ensures ExchangeRepair(dist, P, fs, idx, 0, j) == InsertionRepair(dist, P, idx, j)
  {
    var a := ExchangeRepair(dist, P, fs, idx, 0, j);
    var b := InsertionRepair(dist, P, idx, j);
    forall i | 0 <= i < |a|
      ensures a[i] == b[i]
    {
      assert BestExcept(dist, P.points[i], fs, 0, 1).None?;
    }
  }
}

=== FILE: search.dfy ===
/** The three neighbourhood searches of include/solution.h: exchange_search,
    insertion_search and elimination_search. Each prices every candidate move
    by repairing a copy of the given cache, and keeps the LAST candidate whose
    price passes its acceptance test against the running best value. */
module Neighbourhoods {
  import opened Options
  import opened Problems
  import opened Solutions
  import opened Repairs

  /** The acceptance test of each search. */
  datatype Rule =
    | Improve    // exchange: strictly below the running best
    | Penalised  // insertion: below 0.8 of the running best (penalty 0.2)
    | Boosted    // elimination: 0.95 of the price (boost 0.05) below the running best

  predicate Accepts(rule: Rule, v: real, best: real) {
    match rule
    case Improve => v < best
    case Penalised => v < best * 0.8
    case Boosted => v * 0.95 < best
  }

  /** The state of a search loop: the candidate kept so far and the running best value. */
  datatype Scan = Scan(choice: Option<nat>, best: real)

  /** A search loop over the first m candidate prices, starting from the value `start`. */
  function ScanPrefix(costs: seq<real>, rule: Rule, start: real, m: nat): (s: Scan)
    requires m <= |costs|
    ensures s.choice.None? <==> forall c :: 0 <= c < m ==> !Accepts(rule, costs[c], start)
    ensures s.choice.None? ==> s.best == start
    ensures s.choice.Some? ==> s.choice.value < m && s.best == costs[s.choice.value]
    ensures s.choice.Some? ==> forall c :: s.choice.value < c < m ==> !Accepts(rule, costs[c], s.best)
    decreases m
  {
    if m == 0 then Scan(None, start)
    else
      var prev := ScanPrefix(costs, rule, start, m - 1);
      if Accepts(rule, costs[m - 1], prev.best) then Scan(Some(m - 1), costs[m - 1]) else prev
  }

  /** Under the strict rule the kept candidate is the first one of least price,
      and that price is below the start. */
  lemma {:induction false} ImproveScanIsFirstMinimum(costs: seq<real>, start: real, m: nat)
    requires m <= |costs|
    ensures var s := ScanPrefix(costs, Improve, start, m);
      s.choice.Some? ==>
        && costs[s.choice.value] < start
        && (forall c :: 0 <= c < m ==> costs[s.choice.value] <= costs[c])
        && (forall c :: 0 <= c < s.choice.value ==> costs[s.choice.value] < costs[c])
    decreases m
  {
    if m > 0 {
      ImproveScanIsFirstMinimum(costs, start, m - 1);
    }
  }

  /** Under the insertion rule the kept candidate is priced below
      0.8 times a non-negative start. */
  lemma {:induction false} PenalisedScanBelowThreshold(costs: seq<real>, start: real, m: nat)
    requires m <= |costs|
    requires start >= 0.0
    ensures var s := ScanPrefix(costs, Penalised, start, m);
      s.choice.Some? ==> costs[s.choice.value] < start * 0.8
    decreases m
  {
    if m > 0 {
      PenalisedScanBelowThreshold(costs, start, m - 1);
    }
  }

  /** Under the elimination rule the kept candidate passed the test against the
      start or against the price of an earlier kept candidate: the bar it has to
      pass moves up with every acceptance. */
  lemma {:induction false} BoostedScanPassedRunningBest(costs: seq<real>, start: real, m: nat)
    requires m <= |costs|
    ensures var s := ScanPrefix(costs, Boosted, start, m);
      s.choice.Some? ==>
        || costs[s.choice.value] * 0.95 < start
        || exists c :: 0 <= c < s.choice.value && costs[s.choice.value] * 0.95 < costs[c]
    decreases m
  {
    if m > 0 {
      BoostedScanPassedRunningBest(costs, start, m - 1);
    }
  }

  /** Two removal candidates priced 104 and 109 against a current value of 100:
      both are accepted in turn and the dearer one is kept, more than 5% above 100. */
  lemma BoostedScanDrifts()
    ensures ScanPrefix([104.0, 109.0], Boosted, 100.0, 2) == Scan(Some(1), 109.0)
    ensures !Accepts(Boosted, 109.0, 100.0)
  {
  }

  /** Two insertion candidates priced 50 and 45 against a current value of 100:
      50 passes (below 80) and becomes the bar; 45 is not below 0.8 times 50,
      so the dearer candidate is kept although 45 also passes against 100. */
  lemma PenalisedScanKeepsEarlierPass()
    ensures ScanPrefix([50.0, 45.0], Penalised, 100.0, 2) == Scan(Some(0), 50.0)
    ensures Accepts(Penalised, 45.0, 100.0)
  {
  }

  // ---------------------------------------------------------------------------
  // Exchange

  /** The (facility position, Problem index) pairs of exchange_search, in loop order. */
  function ExchangeMoves(m: nat, n: nat): (r: seq<(int, int)>)
    ensures forall c :: 0 <= c < |r| ==> 0 <= r[c].0 < m && 0 <= r[c].1 < n
    decreases m
  {
    if m == 0 then []
    else ExchangeMoves(m - 1, n) + seq(n, j requires 0 <= j < n => (m - 1, j))
  }

  /** The nested loops of exchange_search try every pair. */
  lemma {:induction false} ExchangeMovesCover(m: nat, n: nat, i: int, j: int)
    requires 0 <= i < m && 0 <= j < n
    ensures exists c :: 0 <= c < |ExchangeMoves(m, n)| && ExchangeMoves(m, n)[c] == (i, j)
    decreases m
  {
    var prev := ExchangeMoves(m - 1, n);
    var all := ExchangeMoves(m, n);
    if i < m - 1 {
      ExchangeMovesCover(m - 1, n, i, j);
      var c :| 0 <= c < |prev| && prev[c] == (i, j);
      assert all[c] == prev[c];
    } else {
      assert all[|prev| + j] == (i, j);
    }
  }

  /** The repaired price of every exchange move, in loop order. */
  function ExchangePrices(dist: Metric, P: Problem, fs: seq<Point>, idx: DistanceIndex): (costs: seq<real>)
    requires |idx| == |P.points|
  {
    var moves := ExchangeMoves(|fs|, |P.points|);
    seq(|moves|, c requires 0 <= c < |moves| => ExchangeCost(dist, P, fs, idx, moves[c].0, moves[c].1))
  }

  /** The move exchange_search keeps, if any. */
  function ExchangeChoice(dist: Metric, P: Problem, fs: seq<Point>, idx: DistanceIndex): (mv: Option<(int, int)>)
    requires |idx| == |P.points|
    ensures mv.Some? ==> 0 <= mv.value.0 < |fs| && 0 <= mv.value.1 < |P.points|
  {
    var moves := ExchangeMoves(|fs|, |P.points|);
    var s := ScanPrefix(ExchangePrices(dist, P, fs, idx), Improve, SumFirst(idx), |moves|);
    if s.choice.Some? then Some(moves[s.choice.value]) else None
  }

  /** exchange_search: `sol`, or `sol` with one position replaced by a Problem point. */
  function ExchangeSearch(dist: Metric, P: Problem, sol: Solution, idx: DistanceIndex): (r: Solution)
    requires |idx| == |P.points|
    ensures |r.facilities| == |sol.facilities| && r.dimensions == sol.dimensions
    ensures forall f :: f in r.facilities ==> f in sol.facilities || f in P.points
    ensures r == sol || exists i, j :: 0 <= i < |sol.facilities| && 0 <= j < |P.points| && r == Exchanged(sol, i, P.points[j])
  {
    match ExchangeChoice(dist, P, sol.facilities, idx)
    case None => sol
    case Some(mv) =>
      var r := Exchanged(sol, mv.0, P.points[mv.1]);
      assert forall k :: 0 <= k < |r.facilities| ==> r.facilities[k] == sol.facilities[k] || r.facilities[k] == P.points[mv.1];
      r
  }

  /** The price of moving position i to Problem point j is in the price list. */
  predicate Listed(dist: Metric, P: Problem, fs: seq<Point>, idx: DistanceIndex, i: int, j: int)
    requires |idx| == |P.points| && 0 <= j < |P.points|
  {
    var costs := ExchangePrices(dist, P, fs, idx);
    exists c :: 0 <= c < |costs| && costs[c] == ExchangeCost(dist, P, fs, idx, i, j)
  }

  /** Every move's price appears in the price list. */
  lemma ExchangePricesCover(dist: Metric, P: Problem, fs: seq<Point>, idx: DistanceIndex)
    requires |idx| == |P.points|
    ensures forall i, j :: 0 <= i < |fs| && 0 <= j < |P.points| ==> Listed(dist, P, fs, idx, i, j)
  {
    forall i, j | 0 <= i < |fs| && 0 <= j < |P.points|
      ensures Listed(dist, P, fs, idx, i, j)
    {
      var moves := ExchangeMoves(|fs|, |P.points|);
      ExchangeMovesCover(|fs|, |P.points|, i, j);
      var c :| 0 <= c < |moves| && moves[c] == (i, j);
      ExchangePriceAt(dist, P, fs, idx, c);
    }
  }

  /** exchange_search keeps no move exactly when no move is priced strictly
      below the cache total. */
  lemma ExchangeChoiceNone(dist: Metric, P: Problem, fs: seq<Point>, idx: DistanceIndex)
    requires |idx| == |P.points|
    ensures ExchangeChoice(dist, P, fs, idx).None?
            <==> forall i, j :: 0 <= i < |fs| && 0 <= j < |P.points| ==>
                   ExchangeCost(dist, P, fs, idx, i, j) >= SumFirst(idx)
  {
    var moves := ExchangeMoves(|fs|, |P.points|);
    var costs := ExchangePrices(dist, P, fs, idx);
    var start := SumFirst(idx);
    var s := ScanPrefix(costs, Improve, start, |moves|);
    if s.choice.None? {
      ExchangePricesCover(dist, P, fs, idx);
      forall i, j | 0 <= i < |fs| && 0 <= j < |P.points|
        ensures ExchangeCost(dist, P, fs, idx, i, j) >= start
      {
        assert Listed(dist, P, fs, idx, i, j);
        var c :| 0 <= c < |moves| && costs[c] == ExchangeCost(dist, P, fs, idx, i, j);
        assert !Accepts(Improve, costs[c], start);
      }
    } else {
      var c :| 0 <= c < |moves| && Accepts(Improve, costs[c], start);
      ExchangePriceAt(dist, P, fs, idx, c);
    }
  }

  /** The move exchange_search keeps is priced strictly below the cache total
      and no higher than any other move. */
  lemma ExchangeChoiceIsCheapest(dist: Metric, P: Problem, fs: seq<Point>, idx: DistanceIndex)
    requires |idx| == |P.points|
    ensures ExchangeChoice(dist, P, fs, idx).Some? ==>
              var mv := ExchangeChoice(dist, P, fs, idx).value;
              && ExchangeCost(dist, P, fs, idx, mv.0, mv.1) < SumFirst(idx)
              && forall i, j :: 0 <= i < |fs| && 0 <= j < |P.points| ==>
                   ExchangeCost(dist, P, fs, idx, mv.0, mv.1) <= ExchangeCost(dist, P, fs, idx, i, j)
  {
    var moves := ExchangeMoves(|fs|, |P.points|);
    var costs := ExchangePrices(dist, P, fs, idx);
    var start := SumFirst(idx);
    var s := ScanPrefix(costs, Improve, start, |moves|);
    if s.choice.Some? {
      var best := s.choice.value;
      ImproveScanIsFirstMinimum(costs, start, |moves|);
      ExchangePricesCover(dist, P, fs, idx);
      ExchangePriceAt(dist, P, fs, idx, best);
      forall i, j | 0 <= i < |fs| && 0 <= j < |P.points|
        ensures costs[best] <= ExchangeCost(dist, P, fs, idx, i, j)
      {
        assert Listed(dist, P, fs, idx, i, j);
        var c :| 0 <= c < |moves| && costs[c] == ExchangeCost(dist, P, fs, idx, i, j);
      }
    }
  }

  /** One entry of the exchange price list. */
  lemma ExchangePriceAt(dist: Metric, P: Problem, fs: seq<Point>, idx: DistanceIndex, c: int)
    requires |idx| == |P.points|
    requires 0 <= c < |ExchangeMoves(|fs|, |P.points|)|
    ensures var mv := ExchangeMoves(|fs|, |P.points|)[c];
      ExchangePrices(dist, P, fs, idx)[c] == ExchangeCost(dist, P, fs, idx, mv.0, mv.1)
  {
  }

  // ---------------------------------------------------------------------------
  // Insertion

  /** The repaired price of inserting each Problem point, in loop order. */
  function InsertionPrices(dist: Metric, P: Problem, idx: DistanceIndex): (costs: seq<real>)
    requires |idx| == |P.points|
  {
    seq(|P.points|, j requires 0 <= j < |P.points| => InsertionCost(dist, P, idx, j))
  }

  /** The Problem point insertion_search keeps, if any. */
  function InsertionChoice(dist: Metric, P: Problem, idx: DistanceIndex): (mv: Option<nat>)
    requires |idx| == |P.points|
    ensures mv.Some? ==> mv.value < |P.points|
  {
    ScanPrefix(InsertionPrices(dist, P, idx), Penalised, SumFirst(idx), |P.points|).choice
  }

  /** insertion_search: `sol`, or `sol` with one Problem point appended. */
  function InsertionSearch(dist: Metric, P: Problem, sol: Solution, idx: DistanceIndex): (r: Solution)
    requires |idx| == |P.points|
    ensures |r.facilities| >= |sol.facilities| && r.dimensions == sol.dimensions
    ensures forall f :: f in r.facilities ==> f in sol.facilities || f in P.points
    ensures r == sol || exists j :: 0 <= j < |P.points| && r == Inserted(sol, P.points[j])
  {
    match InsertionChoice(dist, P, idx)
    case None => sol
    case Some(j) => Inserted(sol, P.points[j])
  }

  /** insertion_search keeps no point exactly when none is priced below 0.8
      times the cache total. */
  lemma InsertionChoiceNone(dist: Metric, P: Problem, idx: DistanceIndex)
    requires |idx| == |P.points|
    ensures InsertionChoice(dist, P, idx).None?
            <==> forall j :: 0 <= j < |P.points| ==>
                   InsertionCost(dist, P, idx, j) >= SumFirst(idx) * 0.8
  {
    var costs := InsertionPrices(dist, P, idx);
    var start := SumFirst(idx);
    var scan := ScanPrefix(costs, Penalised, start, |P.points|);
    assert InsertionChoice(dist, P, idx) == scan.choice;
    if scan.choice.None? {
      forall j | 0 <= j < |P.points|
        ensures InsertionCost(dist, P, idx, j) >= start * 0.8
      {
        assert !Accepts(Penalised, costs[j], start);
      }
    } else {
      var c :| 0 <= c < |P.points| && Accepts(Penalised, costs[c], start);
      assert InsertionCost(dist, P, idx, c) < start * 0.8;
    }
  }

  /** The point insertion_search keeps is priced below 0.8 times a
      non-negative cache total, and no later point beats 0.8 times its price. */
  lemma InsertionChoiceSome(dist: Metric, P: Problem, idx: DistanceIndex)
    requires |idx| == |P.points|
    ensures InsertionChoice(dist, P, idx).Some? ==>
              var j := InsertionChoice(dist, P, idx).value;
              && (SumFirst(idx) >= 0.0 ==> InsertionCost(dist, P, idx, j) < SumFirst(idx) * 0.8)
              && forall j' :: j < j' < |P.points| ==>
                   InsertionCost(dist, P, idx, j') >= InsertionCost(dist, P, idx, j) * 0.8
  {
    var costs := InsertionPrices(dist, P, idx);
    var start := SumFirst(idx);
    var scan := ScanPrefix(costs, Penalised, start, |P.points|);
    assert InsertionChoice(dist, P, idx) == scan.choice;
    if scan.choice.Some? {
      var j := scan.choice.value;
      if start >= 0.0 {
        PenalisedScanBelowThreshold(costs, start, |P.points|);
        assert costs[j] == InsertionCost(dist, P, idx, j);
      }
      forall j' | j < j' < |P.points|
        ensures InsertionCost(dist, P, idx, j') >= InsertionCost(dist, P, idx, j) * 0.8
      {
        assert !Accepts(Penalised, costs[j'], scan.best);
      }
    }
  }

  // ---------------------------------------------------------------------------
  // Elimination

  /** The repaired price of removing each facility, in loop order. */
  function EliminationPrices(dist: Metric, P: Problem, fs: seq<Point>, idx: DistanceIndex): (costs: seq<real>)
    requires |idx| == |P.points|
  {
    seq(|fs|, i requires 0 <= i < |fs| => EliminationCost(dist, P, fs, idx, i))
  }

  /** The position elimination_search erases, if any. */
  function EliminationChoice(dist: Metric, P: Problem, fs: seq<Point>, idx: DistanceIndex): (mv: Option<nat>)
    requires |idx| == |P.points|
    ensures mv.Some? ==> mv.value < |fs|
  {
    ScanPrefix(EliminationPrices(dist, P, fs, idx), Boosted, SumFirst(idx), |fs|).choice
  }

  /** elimination_search: `sol`, or `sol` with one position erased. */
  function EliminationSearch(dist: Metric, P: Problem, sol: Solution, idx: DistanceIndex): (r: Solution)
    requires |idx| == |P.points|
    ensures |r.facilities| >= |sol.facilities| - 1 && r.dimensions == sol.dimensions
    ensures forall f :: f in r.facilities ==> f in sol.facilities
    ensures r == sol || exists i :: 0 <= i < |sol.facilities| && r == Erased(sol, i)
  {
    match EliminationChoice(dist, P, sol.facilities, idx)
    case None => sol
    case Some(i) =>
      var r := Erased(sol, i);
      assert forall k :: 0 <= k < |r.facilities| ==> r.facilities[k] in sol.facilities;
      r
  }

  /** elimination_search erases nothing exactly when no removal, priced and
      scaled by 0.95, falls below the cache total. */
  lemma EliminationChoiceNone(dist: Metric, P: Problem, fs: seq<Point>, idx: DistanceIndex)
    requires |idx| == |P.points|
    ensures EliminationChoice(dist, P, fs, idx).None?
            <==> forall i :: 0 <= i < |fs| ==>
                   EliminationCost(dist, P, fs, idx, i) * 0.95 >= SumFirst(idx)
  {
    var costs := EliminationPrices(dist, P, fs, idx);
    var start := SumFirst(idx);
    var scan := ScanPrefix(costs, Boosted, start, |fs|);
    assert EliminationChoice(dist, P, fs, idx) == scan.choice;
    if scan.choice.None? {
      forall i | 0 <= i < |fs|
        ensures EliminationCost(dist, P, fs, idx, i) * 0.95 >= start
      {
        assert !Accepts(Boosted, costs[i], start);
      }
    } else {
      var c :| 0 <= c < |fs| && Accepts(Boosted, costs[c], start);
      assert EliminationCost(dist, P, fs, idx, c) * 0.95 < start;
    }
  }

  /** The position elimination_search erases passed, scaled by 0.95, against
      the running best: the cache total or the price of an earlier accepted
      removal. */
  lemma EliminationChoicePassed(dist: Metric, P: Problem, fs: seq<Point>, idx: DistanceIndex)
    requires |idx| == |P.points|
    ensures EliminationChoice(dist, P, fs, idx).Some? ==>
              var i := EliminationChoice(dist, P, fs, idx).value;
              || EliminationCost(dist, P, fs, idx, i) * 0.95 < SumFirst(idx)
              || exists i0 :: 0 <= i0 < i &&
                   EliminationCost(dist, P, fs, idx, i) * 0.95 < EliminationCost(dist, P, fs, idx, i0)
  {
    var costs := EliminationPrices(dist, P, fs, idx);
    var start := SumFirst(idx);
    var scan := ScanPrefix(costs, Boosted, start, |fs|);
    assert EliminationChoice(dist, P, fs, idx) == scan.choice;
    if scan.choice.Some? {
      var i := scan.choice.value;
      BoostedScanPassedRunningBest(costs, start, |fs|);
      assert costs[i] == EliminationCost(dist, P, fs, idx, i);
      if costs[i] * 0.95 >= start {
        var c :| 0 <= c < i && costs[i] * 0.95 < costs[c];
        assert costs[c] == EliminationCost(dist, P, fs, idx, c);
      }
    }
  }

  /** No removal after the erased position passes, scaled by 0.95, against its price. */
  lemma EliminationChoiceLast(dist: Metric, P: Problem, fs: seq<Point>, idx: DistanceIndex)
    requires |idx| == |P.points|
    ensures EliminationChoice(dist, P, fs, idx).Some? ==>
              var i := EliminationChoice(dist, P, fs, idx).value;
              forall i' :: i < i' < |fs| ==>
                EliminationCost(dist, P, fs, idx, i') * 0.95 >= EliminationCost(dist, P, fs, idx, i)
  {
    var costs := EliminationPrices(dist, P, fs, idx);
    var scan := ScanPrefix(costs, Boosted, SumFirst(idx), |fs|);
    assert EliminationChoice(dist, P, fs, idx) == scan.choice;
    if scan.choice.Some? {
      var i := scan.choice.value;
      assert costs[i] == EliminationCost(dist, P, fs, idx, i);
      forall i' | i < i' < |fs|
        ensures EliminationCost(dist, P, fs, idx, i') * 0.95 >= EliminationCost(dist, P, fs, idx, i)
      {
        assert !Accepts(Boosted, costs[i'], scan.best);
      }
    }
  }

  // ---------------------------------------------------------------------------
  // The searches read through a cache that satisfies the invariant

  /** No exchange neighbour of `s` is strictly cheaper. */
  predicate ExchangeOptimal(dist: Metric, P: Problem, s: Solution)
    requires |s.facilities| >= 1
  {
    forall i, j :: 0 <= i < |s.facilities| && 0 <= j < |P.points| ==>
      Cost(dist, P, Exchanged(s, i, P.points[j])) >= Cost(dist, P, s)
  }

  /** No insertion into `s` is cheaper by the 0.2 insertion penalty. */
  predicate InsertionOptimal(dist: Metric, P: Problem, s: Solution)
    requires |s.facilities| >= 1
  {
    forall j :: 0 <= j < |P.points| ==>
      Cost(dist, P, Inserted(s, P.points[j])) >= Cost(dist, P, s) * 0.8
  }

  /** Every exchange price read from a consistent cache is the true cost of
      the exchanged solution. */
  lemma ExchangePricesAreCosts(dist: Metric, P: Problem, sol: Solution, idx: DistanceIndex)
    requires |sol.facilities| >= 2
    requires Consistent(dist, P, sol.facilities, idx)
    ensures forall i, j :: 0 <= i < |sol.facilities| && 0 <= j < |P.points| ==>
      ExchangeCost(dist, P, sol.facilities, idx, i, j) == Cost(dist, P, Exchanged(sol, i, P.points[j]))
  {
    forall i, j | 0 <= i < |sol.facilities| && 0 <= j < |P.points|
      ensures ExchangeCost(dist, P, sol.facilities, idx, i, j) == Cost(dist, P, Exchanged(sol, i, P.points[j]))
    {
      ExchangeRepairIsEvaluate(dist, P, sol, idx, i, j);
    }
  }

  /** With a consistent cache and two or more facilities, exchange_search
      returns an exchange neighbour of least cost, changes `sol` only for a
      strictly cheaper one, and keeps it exactly when none is cheaper. */
  lemma ExchangeSearchIsBestNeighbour(dist: Metric, P: Problem, sol: Solution, idx: DistanceIndex)
    requires |sol.facilities| >= 2
    requires Consistent(dist, P, sol.facilities, idx)
    ensures var r := ExchangeSearch(dist, P, sol, idx);
      && (r == sol || exists i, j :: 0 <= i < |sol.facilities| && 0 <= j < |P.points| && r == Exchanged(sol, i, P.points[j]))
      && (r == sol || Cost(dist, P, r) < Cost(dist, P, sol))
      && (r == sol <==> ExchangeOptimal(dist, P, sol))
      && Cost(dist, P, r) <= Cost(dist, P, sol)
      && forall i, j :: 0 <= i < |sol.facilities| && 0 <= j < |P.points| ==>
           Cost(dist, P, r) <= Cost(dist, P, Exchanged(sol, i, P.points[j]))
  {
    var fs := sol.facilities;
    ConsistentSumIsCost(dist, P, sol, idx);
    ExchangePricesAreCosts(dist, P, sol, idx);
    ExchangeChoiceNone(dist, P, fs, idx);
    ExchangeChoiceIsCheapest(dist, P, fs, idx);
    var r := ExchangeSearch(dist, P, sol, idx);
    var mv := ExchangeChoice(dist, P, fs, idx);
    if mv.Some? {
      assert r == Exchanged(sol, mv.value.0, P.points[mv.value.1]);
      assert Cost(dist, P, r) == ExchangeCost(dist, P, fs, idx, mv.value.0, mv.value.1);
      assert Cost(dist, P, r) < Cost(dist, P, sol);
    } else {
      assert r == sol;
    }
  }

  /** With a consistent cache, insertion_search keeps `sol` exactly when no
      Problem point would cut the true cost below 0.8 times the
      current one; otherwise it appends one that does. */
  lemma InsertionSearchCutsCost(dist: Metric, P: Problem, sol: Solution, idx: DistanceIndex)
    requires |sol.facilities| >= 1
    requires Consistent(dist, P, sol.facilities, idx)
    ensures var r := InsertionSearch(dist, P, sol, idx);
      && (r == sol <==> InsertionOptimal(dist, P, sol))
      && (r != sol ==>
            exists j :: 0 <= j < |P.points| && r == Inserted(sol, P.points[j])
                        && Cost(dist, P, r) < Cost(dist, P, sol) * 0.8)
  {
    ConsistentSumIsCost(dist, P, sol, idx);
    CostNonNegative(dist, P, sol);
    forall j | 0 <= j < |P.points|
      ensures InsertionCost(dist, P, idx, j) == Cost(dist, P, Inserted(sol, P.points[j]))
    {
      InsertionRepairIsEvaluate(dist, P, sol, idx, j);
    }
    InsertionChoiceNone(dist, P, idx);
    InsertionChoiceSome(dist, P, idx);
    var mv := InsertionChoice(dist, P, idx);
    var r := InsertionSearch(dist, P, sol, idx);
    if mv.Some? {
      var j := mv.value;
      assert r == Inserted(sol, P.points[j]);
      assert |r.facilities| == |sol.facilities| + 1;
      assert InsertionCost(dist, P, idx, j) < SumFirst(idx) * 0.8;
      assert Cost(dist, P, r) < Cost(dist, P, sol) * 0.8;
    } else {
      assert r == sol;
    }
  }

  /** With a consistent cache and two or more facilities, elimination_search
      erases nothing exactly when every removal, scaled by 0.95, stays at or
      above the current cost; and whatever it erases, the true cost does not
      go down. */
  lemma EliminationSearchNeverLowersCost(dist: Metric, P: Problem, sol: Solution, idx: DistanceIndex)
    requires |sol.facilities| >= 2
    requires Consistent(dist, P, sol.facilities, idx)
    ensures var r := EliminationSearch(dist, P, sol, idx);
      && (r == sol <==> forall i :: 0 <= i < |sol.facilities| ==>
            Cost(dist, P, Erased(sol, i)) * 0.95 >= Cost(dist, P, sol))
      && |r.facilities| >= 1
      && Cost(dist, P, r) >= Cost(dist, P, sol)
  {
    var fs := sol.facilities;
    ConsistentSumIsCost(dist, P, sol, idx);
    forall i | 0 <= i < |fs|
      ensures EliminationCost(dist, P, fs, idx, i) == Cost(dist, P, Erased(sol, i))
      ensures EliminationCost(dist, P, fs, idx, i) >= SumFirst(idx)
    {
      EliminationRepairIsEvaluate(dist, P, sol, idx, i);
      EliminationNeverLowers(dist, P, sol, idx, i);
    }
    EliminationChoiceNone(dist, P, fs, idx);
    var mv := EliminationChoice(dist, P, fs, idx);
    if mv.Some? {
      assert |EliminationSearch(dist, P, sol, idx).facilities| == |fs| - 1;
    }
  }
}

=== FILE: solution.dfy ===
/** Facility sets, their p-median cost and the per-point nearest-facility
    cache (include/solution.h: evaluate, operator==, operator!=). */
module Solutions {
  import opened Problems

  /** An ordered list of facilities; `dimensions` is what the constructor was given. */
  datatype Solution = Solution(facilities: seq<Point>, dimensions: int)

  /** One cache slot of a DistanceIndex: a distance and the facility it was measured to. */
  type Entry = (real, int)

  /** One slot per demand point, in problem order. */
  type DistanceIndex = seq<Entry>

  /** The running minimum of a scan: +infinity until a facility has been seen. */
  datatype Bound = Infinity | Finite(value: real)

  predicate Below(d: real, b: Bound) {
    b.Infinity? || d < b.value
  }

  /** Per-coordinate tolerance of `operator==`. */
  const Tolerance: real := 0.001

  function Abs(x: real): real {
    if x < 0.0 then -x else x
  }

  /** The total of the cached distances, added in index order (`sum_distances`). */
  function SumFirst(idx: DistanceIndex): real {
    if |idx| == 0 then 0.0 else SumFirst(idx[..|idx| - 1]) + idx[|idx| - 1].0
  }

  /** e names a facility of fs at minimum distance from p, and holds that distance. */
  predicate IsNearest(dist: Metric, p: Point, fs: seq<Point>, e: Entry) {
    && 0 <= e.1 < |fs|
    && e.0 == dist(p, fs[e.1])
    && forall k :: 0 <= k < |fs| ==> e.0 <= dist(p, fs[k])
  }

  /** As IsNearest, and no earlier facility is as close: the strict `<` of the scan. */
  predicate IsFirstNearest(dist: Metric, p: Point, fs: seq<Point>, e: Entry) {
    && IsNearest(dist, p, fs, e)
    && forall k :: 0 <= k < e.1 ==> e.0 < dist(p, fs[k])
  }

  /** The slot a left-to-right scan with strict `<` leaves for demand point p. */
  function Nearest(dist: Metric, p: Point, fs: seq<Point>): (e: Entry)
    requires |fs| >= 1
    ensures IsFirstNearest(dist, p, fs, e)
    decreases |fs|
  {
    if |fs| == 1 then (dist(p, fs[0]), 0)
    else
      var b := Nearest(dist, p, fs[..|fs| - 1]);
      var d := dist(p, fs[|fs| - 1]);
      if d < b.0 then (d, |fs| - 1) else b
  }

  /** The cache `evaluate(problem, distances)` fills in. */
  function NearestIndex(dist: Metric, P: Problem, fs: seq<Point>): (idx: DistanceIndex)
    requires |fs| >= 1
  {
    seq(|P.points|, i requires 0 <= i < |P.points| => Nearest(dist, P.points[i], fs))
  }

  /** The cache invariant: every slot holds its point's minimum distance and a
      facility attaining it. */
  predicate Consistent(dist: Metric, P: Problem, fs: seq<Point>, idx: DistanceIndex) {
    && |idx| == |P.points|
    && forall i :: 0 <= i < |idx| ==> IsNearest(dist, P.points[i], fs, idx[i])
  }

  /** The cache invariant with the lowest attaining position in every slot. */
  predicate Canonical(dist: Metric, P: Problem, fs: seq<Point>, idx: DistanceIndex) {
    && |idx| == |P.points|
    && forall i :: 0 <= i < |idx| ==> IsFirstNearest(dist, P.points[i], fs, idx[i])
  }

  /** The p-median objective: the sum over demand points of the distance to
      the nearest facility. */
  function Cost(dist: Metric, P: Problem, sol: Solution): real
    requires |sol.facilities| >= 1
  {
    SumFirst(NearestIndex(dist, P, sol.facilities))
  }

  /** Two coordinates differ by at most Tolerance (`fabs(u - v) > 0.001` is the negation). */
  predicate Close(u: real, v: real) {
    Abs(u - v) <= Tolerance
  }

  /** Two points agree in length and, coordinate by coordinate, within Tolerance. */
  predicate PointsClose(x: Point, y: Point) {
    |x| == |y| && forall c :: 0 <= c < |x| ==> Close(x[c], y[c])
  }

  /** The relation `operator==` decides; `dimensions` takes no part in it. */
  predicate ApproxEqual(a: Solution, b: Solution) {
    && |a.facilities| == |b.facilities|
    && forall t :: 0 <= t < |a.facilities| ==> PointsClose(a.facilities[t], b.facilities[t])
  }

  // ---------------------------------------------------------------------------
  // Facts about the cache

  lemma {:induction false} SumFirstCongruent(a: DistanceIndex, b: DistanceIndex)
    requires |a| == |b|
    requires forall i :: 0 <= i < |a| ==> a[i].0 == b[i].0
    ensures SumFirst(a) == SumFirst(b)
    decreases |a|
  {
    if |a| > 0 {
      SumFirstCongruent(a[..|a| - 1], b[..|b| - 1]);
    }
  }

  lemma {:induction false} SumFirstMonotone(a: DistanceIndex, b: DistanceIndex)
    requires |a| == |b|
    requires forall i :: 0 <= i < |a| ==> a[i].0 <= b[i].0
    ensures SumFirst(a) <= SumFirst(b)
    decreases |a|
  {
    if |a| > 0 {
      SumFirstMonotone(a[..|a| - 1], b[..|b| - 1]);
    }
  }

  lemma {:induction false} SumFirstNonNegative(a: DistanceIndex)
    requires forall i :: 0 <= i < |a| ==> a[i].0 >= 0.0
    ensures SumFirst(a) >= 0.0
    decreases |a|
  {
    if |a| > 0 {
      SumFirstNonNegative(a[..|a| - 1]);
    }
  }

  /** Any entry attaining the minimum holds the same distance as Nearest. */
  lemma NearestValue(dist: Metric, p: Point, fs: seq<Point>, e: Entry)
    requires |fs| >= 1
    requires IsNearest(dist, p, fs, e)
    ensures e.0 == Nearest(dist, p, fs).0
  {
    var n := Nearest(dist, p, fs);
    assert n.0 <= dist(p, fs[e.1]);
    assert e.0 <= dist(p, fs[n.1]);
  }

  /** The first-nearest slot is unique: the strict `<` fixes which facility a tie goes to. */
  lemma FirstNearestUnique(dist: Metric, p: Point, fs: seq<Point>, e: Entry)
    requires |fs| >= 1
    requires IsFirstNearest(dist, p, fs, e)
    ensures e == Nearest(dist, p, fs)
  {
    NearestValue(dist, p, fs, e);
  }

  /** A cache satisfies the invariant with lowest positions exactly when it is
      the one `evaluate(problem, distances)` builds. */
  lemma CanonicalIsNearestIndex(dist: Metric, P: Problem, fs: seq<Point>, idx: DistanceIndex)
    requires |fs| >= 1
    ensures Canonical(dist, P, fs, idx) <==> idx == NearestIndex(dist, P, fs)
  {
    if Canonical(dist, P, fs, idx) {
      forall i | 0 <= i < |idx|
        ensures idx[i] == NearestIndex(dist, P, fs)[i]
      {
        FirstNearestUnique(dist, P.points[i], fs, idx[i]);
      }
    }
  }

  /** Whatever cache satisfies the invariant, its total is the objective. */
  lemma ConsistentSumIsCost(dist: Metric, P: Problem, sol: Solution, idx: DistanceIndex)
    requires |sol.facilities| >= 1
    requires Consistent(dist, P, sol.facilities, idx)
    ensures SumFirst(idx) == Cost(dist, P, sol)
  {
    var ref := NearestIndex(dist, P, sol.facilities);
    forall i | 0 <= i < |idx|
      ensures idx[i].0 == ref[i].0
    {
      NearestValue(dist, P.points[i], sol.facilities, idx[i]);
    }
    SumFirstCongruent(idx, ref);
  }

  lemma CostNonNegative(dist: Metric, P: Problem, sol: Solution)
    requires |sol.facilities| >= 1
    ensures Cost(dist, P, sol) >= 0.0
  {
    var ref := NearestIndex(dist, P, sol.facilities);
    forall i | 0 <= i < |ref|
      ensures ref[i].0 >= 0.0
    {
      assert ref[i].0 == dist(P.points[i], sol.facilities[ref[i].1]);
    }
    SumFirstNonNegative(ref);
  }

  lemma ApproxEqualReflexive(a: Solution)
    ensures ApproxEqual(a, a)
  {
  }

  lemma ApproxEqualSymmetric(a: Solution, b: Solution)
    ensures ApproxEqual(a, b) <==> ApproxEqual(b, a)
  {
    if ApproxEqual(a, b) {
      forall t | 0 <= t < |b.facilities|
        ensures PointsClose(b.facilities[t], a.facilities[t])
      {
        assert PointsClose(a.facilities[t], b.facilities[t]);
      }
    }
    if ApproxEqual(b, a) {
      forall t | 0 <= t < |a.facilities|
        ensures PointsClose(a.facilities[t], b.facilities[t])
      {
        assert PointsClose(b.facilities[t], a.facilities[t]);
      }
    }
  }

  // ---------------------------------------------------------------------------
  // The two evaluate overloads and the comparison operators

  /** The inner loop of both evaluate overloads for one demand point p: scan
      the facilities keeping a strictly smaller distance and where it came from. */
  method ScanFacilities(dist: Metric, p: Point, fs: seq<Point>) returns (best: Bound, e: Entry)
    requires |fs| >= 1
    ensures best == Finite(e.0)
    ensures IsFirstNearest(dist, p, fs, e)
  {
    best, e := Infinity, (0.0, 0);
    for j := 0 to |fs|
      invariant j == 0 ==> best == Infinity
      invariant j > 0 ==> best == Finite(e.0) && e == Nearest(dist, p, fs[..j])
    {
      var d := dist(p, fs[j]);
      assert fs[..j + 1][..j] == fs[..j];
      if Below(d, best) {
        best, e := Finite(d), (d, j);
      }
    }
    assert fs[..|fs|] == fs;
  }

  /** `evaluate(problem)`: for every demand point scan all facilities keeping the
      strictly smaller distance, and add up the minima. */
  method Evaluate(dist: Metric, P: Problem, sol: Solution) returns (cost: real)
    requires |sol.facilities| >= 1
    ensures cost == Cost(dist, P, sol)
  {
    ghost var ref := NearestIndex(dist, P, sol.facilities);
    cost := 0.0;
    for i := 0 to |P.points|
      invariant cost == SumFirst(ref[..i])
    {
      var best, e := ScanFacilities(dist, P.points[i], sol.facilities);
      FirstNearestUnique(dist, P.points[i], sol.facilities, e);
      assert ref[..i + 1][..i] == ref[..i];
      cost := cost + best.value;
    }
    assert ref[..|P.points|] == ref;
  }

  /** `evaluate(problem, distances)`: the same scan, also recording in slot i the
      distance and position of the facility each strict improvement came from. */
  method EvaluateIndexed(dist: Metric, P: Problem, sol: Solution) returns (cost: real, idx: DistanceIndex)
    requires |sol.facilities| >= 1
    ensures Canonical(dist, P, sol.facilities, idx)
    ensures cost == SumFirst(idx)
    ensures cost == Cost(dist, P, sol)
  {
    ghost var ref := NearestIndex(dist, P, sol.facilities);
    idx := seq(|P.points|, _ => (0.0, 0));
    cost := 0.0;
    for i := 0 to |P.points|
      invariant |idx| == |P.points|
      invariant forall t :: 0 <= t < i ==> idx[t] == ref[t]
      invariant cost == SumFirst(ref[..i])
    {
      var best, e := ScanFacilities(dist, P.points[i], sol.facilities);
      FirstNearestUnique(dist, P.points[i], sol.facilities, e);
      idx := idx[i := e];
      assert ref[..i + 1][..i] == ref[..i];
      cost := cost + best.value;
    }
    assert ref[..|P.points|] == ref;
    assert idx == ref;
    CanonicalIsNearestIndex(dist, P, sol.facilities, idx);
  }

  /** `operator==`: same size, and every pair of facilities agrees within Tolerance. */
  method Equals(a: Solution, b: Solution) returns (r: bool)
    ensures r <==> ApproxEqual(a, b)
  {
    if |a.facilities| != |b.facilities| {
      return false;
    }
    for i := 0 to |a.facilities|
      invariant forall t :: 0 <= t < i ==> PointsClose(a.facilities[t], b.facilities[t])
    {
      if |a.facilities[i]| != |b.facilities[i]| {
        return false;
      }
      for j := 0 to |a.facilities[i]|
        invariant forall c :: 0 <= c < j ==> Close(a.facilities[i][c], b.facilities[i][c])
      {
        if Abs(a.facilities[i][j] - b.facilities[i][j]) > Tolerance {
          return false;
        }
      }
    }
    return true;
  }

  /** `operator!=`: the negation of `operator==`. */
  method NotEquals(a: Solution, b: Solution) returns (r: bool)
    ensures r <==> !ApproxEqual(a, b)
  {
    var eq := Equals(a, b);
    r := !eq;
  }
}

=== FILE: trace.dfy ===
/** The improving trace both drivers return: a solution is appended only when
    the trace is empty or it is strictly cheaper than the last entry. */
module Traces {
  import opened Problems
  import opened Solutions

  /** Every entry is non-empty, and strictly cheaper than every earlier one. */
  predicate StrictlyImproving(dist: Metric, P: Problem, trace: seq<Solution>) {
    && (forall t :: 0 <= t < |trace| ==> |trace[t].facilities| >= 1)
    && (forall a, b :: 0 <= a < b < |trace| ==> Cost(dist, P, trace[b]) < Cost(dist, P, trace[a]))
  }

  /** The test of include/grasp.h:78 and include/gvns.h:120: an empty trace
      takes anything, otherwise the candidate must be strictly cheaper than
      the last entry. */
  method BeatsLast(dist: Metric, P: Problem, trace: seq<Solution>, sol: Solution) returns (improves: bool)
    requires |sol.facilities| >= 1
    requires StrictlyImproving(dist, P, trace)
    ensures improves <==> |trace| == 0 || Cost(dist, P, sol) < Cost(dist, P, trace[|trace| - 1])
    ensures improves ==> StrictlyImproving(dist, P, trace + [sol])
  {
    if |trace| == 0 {
      return true;
    }
    var c := Evaluate(dist, P, sol);
    var last := Evaluate(dist, P, trace[|trace| - 1]);
    improves := c < last;
    if improves {
      var ext := trace + [sol];
      forall a, b | 0 <= a < b < |ext|
        ensures Cost(dist, P, ext[b]) < Cost(dist, P, ext[a])
      {
        if b == |trace| && a < |trace| - 1 {
          assert Cost(dist, P, trace[|trace| - 1]) < Cost(dist, P, trace[a]);
        }
      }
    }
  }
}
